=== FILE: README.md ===
# pdfQA session layer in Dafny

A model of the deterministic core of pdfQA, a desktop application for asking questions about PDF
files. The parts modelled are:

- the `PDFProcessor` manifest of processed files and the create-or-append rule for its vector
  index (`src/utils.py`);
- text extraction over a list of PDF files;
- the answer-prompt template and how it is formatted;
- the `PDFChatApp` window reduced to the state its handlers change: the pending upload list, the
  enabled state of "Process" and "Ask", the question box, the response-language selector, the
  conversation turns, the question history and its file, and the chat pane (`src/app.py`).

Every external collaborator is a parameter of the operation that uses it:

- the PDF page reader;
- the text splitter;
- `os.path.basename`;
- the language detector;
- the similarity search;
- the wording and document formatting of the answer chain;
- the language model.

Each failure point is a boolean fault flag: loading the index, embedding, saving the index, writing
the manifest, removing the index directory, and writing or truncating the question-history file.

An operation that raises after it has already changed state returns the changed state together with
the error, as the source leaves it.

Modules:

- `Wrappers`: `Option` and `Result`.
- `Strings`: Python's `str.strip`, `str.replace` and `"".join`.
- `PdfText`: `get_pdf_text`.
- `PromptTemplate`: the prompt wording, the parse-then-fill semantics of LangChain's `PromptTemplate`, and the `str.format` rules it applies.
- `IndexProcessor`: `PDFProcessor`.
- `Conversation`: the context window, the output language and the response cleanup.
- `ChatApp`: the window's handlers and `HistoryDialog.clear_history`.

Where the docstrings describe something other than what the code does, the model follows the code:

- `process_pdfs` does not skip files that are already processed; its docstring suggests it does. Processing the
  same files twice records them twice. Only the upload dialog filters against the manifest, and it
  does not de-duplicate within one selection.
- The manifest is extended once, after the whole batch has been embedded and the index saved, not
  file by file.
- A question asked while no index exists fails: loading the index raises, and the turn shows an
  error. It does not proceed with no documents.
- Of the four replacements in the response cleanup only the first two have an effect. Once every
  `*` is gone, `"* "` and `"** "` cannot occur.
- When every selected file is already processed, the pending list is emptied but the "Process"
  button keeps whatever state it had. Pressing it then does nothing, because the handler returns
  early on an empty pending list.

## Model

| member | source | states |
|---|---|---|
| Strings.Strip | src/app.py:328 | the stripped question is the slice of the input after its leading whitespace; it neither starts nor ends with whitespace and is empty exactly when the input is all whitespace |
| Strings.Replace | src/app.py:369 | Python's `str.replace`: a replacement as long as its pattern keeps the length, a shorter one never lengthens the text, and text shorter than the pattern is returned as it is |
| Strings.ReplaceCharByEmpty | src/app.py:369 | `replace("*", "")` removes exactly the asterisks and keeps every other character in order |
| Strings.ReplaceAbsent | src/app.py:369 | a replacement whose pattern never occurs returns its input unchanged |
| Strings.JoinAppend | src/utils.py:104-110 | joining two lists of page texts is joining each and concatenating |
| PdfText.GetPdfText | src/utils.py:104-110 | the loop accumulates exactly the reference text: every page of every file in order, or the first unreadable file's error |
| PdfText.ExtractedTextOutcome | src/utils.py:105-109 | extraction succeeds if and only if every file can be read; a failure names the first file that cannot be read |
| PdfText.ExtractedTextAppend | src/utils.py:105-109 | the files contribute their text in the order given, so the text of `a + b` is the text of `a` followed by that of `b` |
| PdfText.SingleFileText | src/utils.py:108-109 | one file's text is its pages' texts concatenated in page order |
| PdfText.ExtractPrefixFails | src/utils.py:105-107 | once a file fails to open, the whole extraction fails, whatever follows it |
| PromptTemplate.Parse | src/utils.py:64-67 | building the template finds its first malformed brace, an unterminated `{`, a lone `}` or a `{` inside a field, without looking at any value; text without braces parses |
| PromptTemplate.BraceInFieldNameRejected | src/utils.py:64-67 | `{a{b}` is rejected when the template is built, even with a value for `a{b` supplied |
| PromptTemplate.Render | src/utils.py:64-67 | filling in scans left to right; text without braces fills in to itself |
| PromptTemplate.RenderSeesParseErrors | src/utils.py:64-67 | a successful fill-in means the template parses; a fill-in that stops on a brace error stops on the one parsing reports; on a template that parses, fill-in can fail only on a missing key |
| PromptTemplate.Format | src/utils.py:64-67 | a malformed brace anywhere is reported before any value is looked up; otherwise the first field without a value is reported; parsing first never changes whether formatting succeeds or what it yields; text without braces formats to itself |
| PromptTemplate.ParseErrorComesFirst | src/utils.py:64-67 | on `{x} }` with nothing bound, filling in alone would report the missing key `x`, but formatting reports the lone `}` |
| PromptTemplate.RenderField | src/utils.py:64-67 | a `{name}` field fills in to the bound value followed by the rest; an unbound name fails with a missing-key error |
| PromptTemplate.RenderEscaped | src/utils.py:48-61 | escaped literal text fills in back to itself |
| PromptTemplate.EscapeNoBraces | src/utils.py:48-61 | text without braces needs no escaping |
| PromptTemplate.RenderSource | src/utils.py:48-67 | filling in a template's source yields its expansion when every field is bound |
| PromptTemplate.FormatTemplate | src/utils.py:48-67 | a template whose fields are all bound formats to its expansion |
| PromptTemplate.CorrectedTemplateRenders | src/utils.py:48-67 | with the conversation context kept literal, the answer prompt always formats, and it formats to the documents, the conversation context verbatim, the question with its language, and the output-language instruction |
| PromptTemplate.CorrectedExpands | src/utils.py:48-61 | every field of the corrected template is supplied by the chain's four inputs |
| PromptTemplate.AsWrittenAgreesWithoutBraces | src/utils.py:48-61 | without braces in the conversation context, the template the source builds equals the corrected one |
| PromptTemplate.AsWrittenRendersWithoutBraces | src/utils.py:48-67 | when the conversation context holds no brace, the template the source builds formats to the intended prompt |
| PromptTemplate.AsWrittenFailsOnForeignField | src/utils.py:48-67 | a conversation context containing `{name}` for a name the chain does not supply makes formatting fail; when the text after the field holds no brace, the error is that missing key |
| PromptTemplate.AsWrittenRenderFails | src/utils.py:48-67 | filling in the source's template stops at the first unsupplied field in the conversation context |
| PromptTemplate.ForeignFieldParses | src/utils.py:48-67 | a conversation context with one well-formed field and no other brace leaves the source's template parseable, so the missing key is what gets reported |
| PromptTemplate.AsWrittenSource | src/utils.py:48-61 | the source's template string is the escaped wording with the conversation context spliced in raw |
| IndexProcessor.LoadIndexInfo | src/utils.py:143-147 | a missing manifest file gives exactly an empty list of processed files; a stored one is used as is |
| IndexProcessor.Open | src/utils.py:126-130 | the processor starts from the manifest loaded from disk |
| IndexProcessor.Filenames | src/app.py:259 | the names the upload filter compares against are the manifest's file names, in order |
| IndexProcessor.Records | src/utils.py:196-199 | one record per path, holding its base name, in path order |
| IndexProcessor.ProcessPdfs | src/utils.py:178-200 | any failure before the index is saved changes nothing; after it is saved, the manifest keeps its records and gains one per path, without de-duplication; the manifest file is written only on full success; success holds if and only if extraction succeeds and no later step fails |
| IndexProcessor.CreateOrAppend | src/utils.py:188-192 | the saved index extends the existing one exactly when its directory existed and the manifest was non-empty; otherwise it holds only the new chunks |
| IndexProcessor.ProcessingTwiceRecordsTwice | src/utils.py:196-200 | processing the same files twice lists them twice in the manifest |
| IndexProcessor.ClearIndex | src/utils.py:213-220 | a failed removal raises and changes nothing; otherwise the index is gone and the in-memory manifest empty, and either the empty manifest is written or the manifest-write error is raised with the manifest file keeping its old content |
| IndexProcessor.OperationsKeepConsistent | src/utils.py:178-218 | processing and clearing never leave an in-memory manifest that names files while the index is missing, whatever they raise |
| IndexProcessor.SavedManifestConsistency | src/utils.py:178-218 | the manifest file on disk names files only while the index exists, through processing whatever it raises and through a clear whose manifest write succeeds |
| IndexProcessor.FailedClearLeavesStaleManifest | src/utils.py:213-220 | a clear that removes the index and then fails to write the manifest leaves the old manifest file, which names files with no index behind it whenever it named any |
| IndexProcessor.OpenReadsSavedManifest | src/utils.py:126-130 | right after opening, the in-memory manifest is consistent with the index exactly when the manifest file is |
| IndexProcessor.ClearThenProcess | src/utils.py:188-218 | after a clear, the next successful ingest builds a fresh index of the new chunks and lists only the new files |
| Conversation.OutputLanguage | src/app.py:343-344 | the automatic entry answers in the detected language; any other entry answers in that language |
| Conversation.OutputLanguageFromSelector | src/app.py:212 | with the selector on one of its entries, the answer language is the detected language or one of the five fixed languages |
| Conversation.Window | src/app.py:352 | the window is the last three turns, or all of them when there are fewer |
| Conversation.BuildConversationContext | src/app.py:349-353 | the context the loop builds equals the reference: empty without turns, otherwise the header and the windowed turns oldest first |
| Conversation.ConversationContextEmpty | src/app.py:349-351 | the context is empty if and only if there are no prior turns |
| Conversation.ConversationContextLastThree | src/app.py:351-353 | with three or more turns, the context is the header followed by the last three turns in order |
| Conversation.ConversationContextIgnoresOlder | src/app.py:352 | turns older than the last three never reach the prompt |
| Conversation.RenderTurnsAppend | src/app.py:352-353 | the turn lines of `a + b` are those of `a` followed by those of `b` |
| Conversation.PlainTurnsPlainContext | src/app.py:349-353 | turns without braces in their questions and answers give a conversation context without braces |
| Conversation.LastTurnCloses | src/app.py:349-353 | the context ends with the lines of the last turn, after the header and the windowed turns before it |
| Conversation.BracedQuestionBreaksAsWrittenPrompt | src/utils.py:48-67 | when the last turn's question is `{x}` and the turns before it hold no brace, the prompt the source builds fails to format, whatever the answer and the chain's inputs; when that turn's answer holds no brace the error is the missing key `x` |
| Conversation.Sanitize | src/app.py:369 | the cleaned response contains no asterisk |
| Conversation.SanitizeIsCollapseThenDropStars | src/app.py:369 | the cleanup is one left-to-right collapse of double spaces followed by removing every asterisk; the last two replacements have no effect |
| Conversation.SanitizeKeepsSignificant | src/app.py:369 | the cleanup removes only spaces and asterisks: every other character of the response is shown, in order |
| Conversation.SanitizeCanLeaveDoubleSpaces | src/app.py:369 | three spaces collapse only to two, so the cleaned text can still hold a double space |
| Conversation.SanitizeCanJoinSpaces | src/app.py:369 | removing an asterisk between two spaces produces a double space after the collapse |
| Conversation.StarFreeUnchanged | src/app.py:369 | removing asterisks from text without one changes nothing |
| ChatApp.StripLines | src/app.py:438 | each loaded history line is the stripped file line at the same position |
| ChatApp.Init | src/app.py:124-128 | the window starts from the stored manifest, with nothing pending, "Process" disabled, an empty chat and question box, the question history read back from its file, and "Ask" enabled exactly when the manifest lists a file |
| ChatApp.NewFiles | src/app.py:259-261 | the pending files are exactly the selected files whose base name the manifest does not list |
| ChatApp.NewFilesAppend | src/app.py:261 | the upload filter keeps selection order: filtering a concatenation is concatenating the filtered parts |
| ChatApp.UploadPdfs | src/app.py:257-268 | an empty selection changes nothing; otherwise the pending list is the new files, and "Process" is enabled when there is one; when there is none it keeps its state; nothing else changes |
| ChatApp.UploadPendsOnlyNewNames | src/app.py:259-261 | after an upload no pending file has a base name the manifest already lists |
| ChatApp.KnownOnlySelectionIsInert | src/app.py:261-265 | a selection of only processed files keeps the "Process" state, and pressing "Process" afterwards changes nothing |
| ChatApp.ProcessPdfs | src/app.py:289-307 | with nothing pending nothing changes; on success "Ask" is enabled, the pending list emptied and "Process" disabled; on failure the pending files and both buttons are kept |
| ChatApp.TurnPrompt | src/utils.py:48-67 | the chain formats the source's template with the context spliced in: the intended prompt when the context holds no brace; a failure after a `{x}` question that follows brace-free turns, naming the missing key `x` when that turn's answer holds no brace |
| ChatApp.Reply | src/app.py:341-362 | the reply succeeds if and only if detection, index loading and search succeed, the prompt formats, and the model answers; otherwise the first failing step names the error |
| ChatApp.CorrectedReply | src/app.py:341-362 | with the conversation context kept literal, the reply fails only in detection, loading, search or generation, and the model receives the intended prompt |
| ChatApp.ReplyReadsTurnState | src/app.py:341-362 | the reply depends only on the processor, the turns and the language selection, not on the question box, the history or the chat |
| ChatApp.ReplyAgreesWithCorrected | src/app.py:341-362 | while the conversation context holds no brace, in particular while no question or answer so far holds one, the source's reply is the corrected one |
| ChatApp.AnswerTurn | src/app.py:341-375 | a turn is recorded if and only if the reply succeeds; the turn stores the response as returned while the chat shows its cleaned form; a failed turn records nothing and shows that reply's error; nothing else changes |
| ChatApp.AskQuestion | src/app.py:328-339 | a blank question changes nothing; otherwise the question is shown, the box cleared, and the question written to the history file and list before any external call, and then the turn is answered from that logged session; a failed file write escapes before the list changes |
| ChatApp.AnsweredTurnRecorded | src/app.py:328-375 | a question whose turn succeeds is logged, recorded as a turn with the response as returned, and shown followed by the cleaned response; nothing else changes |
| ChatApp.FailedTurnStaysLogged | src/app.py:336-375 | a question whose turn fails at any step stays in the question history, adds no turn, and shows the question and then the failure |
| ChatApp.BracedTurnBlocksLaterTurns | src/app.py:341-375 | after a `{x}` question following brace-free turns, asking adds no turn; once the search succeeds the chat shows a prompt-format failure, the missing key `x` when that turn's answer holds no brace |
| ChatApp.BracedTurnBlocksEveryLaterQuestion | src/app.py:341-375 | after a `{x}` question following brace-free turns, no sequence of later questions adds a turn |
| ChatApp.ClearIndex | src/app.py:390-396 | on success "Ask" is disabled and a notice shown; on failure the error the processor raised is shown and "Ask" keeps its state |
| ChatApp.ClearChatHistory | src/app.py:408-409 | the chat pane and the turns are emptied; the question history is kept |
| ChatApp.ClearQuestionHistory | src/app.py:105-108 | the question list is emptied and the file truncated; a failed truncation escapes after the list is already empty; the turns are kept |
| ChatApp.ClearsCommute | src/app.py:105-108 | clearing the chat and clearing the question history are independent, in either order |
| ChatApp.HandlersKeepInvariant | src/app.py:257-409 | every handler keeps "Process" enabled while files are pending and never leaves an in-memory manifest naming files without an index |
| ChatApp.InitEstablishesInvariant | src/app.py:124-128 | a fresh window satisfies the invariant exactly when the stored manifest lists files only if the index directory exists, and "Ask" matches the manifest |
| ChatApp.RestartAfterFailedClear | src/app.py:390-396 | after a clear whose manifest write fails, a restart enables "Ask" with no index, breaks the invariant, fails every detected question on the missing index, and keeps turning down the stale manifest's files on upload |
| ChatApp.AskTracksManifest | src/app.py:204 | while the manifest file can be written, "Ask" stays enabled exactly when the manifest lists a file, through processing and clearing |
| ChatApp.RetryAfterManifestSaveFailure | src/utils.py:196-200 | when writing the manifest fails, the files stay pending although the in-memory manifest lists them; a successful retry then lists each of them twice |

## Left out

- The widgets themselves are not modelled: layout, progress dialog, list repainting and the Return-key shortcut. The Return key calls the same handler as "Ask". "Ask" being disabled does not stop the Return key, so `AskQuestion` does not consult `askEnabled`.
- File dialogs, the filesystem, `.env` loading and the working-directory change are not modelled. The dialog's result, the files on disk and write failures are parameters.
- PyPDF2 parsing is not modelled: a file's pages come from a reader parameter. The splitter's chunking (size 10000, overlap 1000) is a function parameter and its internals are not modelled.
- Embedding and FAISS are not modelled: the index is its list of chunk texts, and similarity search and the embedding model are parameters.
- Language detection and the language model are parameters. Nothing is said about what they return.
- IndexProcessor.ClearIndex: a failed removal is taken to leave the index whole. `shutil.rmtree` may have deleted part of it before raising, leaving a directory that a later load cannot read.
- IndexProcessor.OperationsKeepConsistent: covers the in-memory manifest only. The manifest file can name files with no index behind it after a clear whose manifest write fails, as `IndexProcessor.FailedClearLeavesStaleManifest` shows.
- ChatApp.HandlersKeepInvariant: covers the in-memory manifest only. A restart from a stale manifest file starts outside the invariant, as `ChatApp.RestartAfterFailedClear` shows.
- The wording of the answer prompt is a field of the query environment. The source's chain always has `PromptTemplate.AnswerWording`. The properties of `ChatApp` hold for any wording, so they hold for that one.
- `IndexProcessor.ProcessPdfs`: does not model what a partially written index directory looks like when `save_local` fails. A failed save is taken to leave the previous index.
- IndexProcessor.ProcessPdfs: a failed manifest write is taken to leave the manifest file as it was. `save_index_info` opens the file with mode `'w'` (src/utils.py:159-160), which truncates it first, so a failure after opening leaves an empty or partial file that `json.load` (src/utils.py:145) rejects at the next start. Only the "write failed before opening" case is modelled.
- IndexProcessor.ClearIndex: a failed manifest write is taken to leave the manifest file as it was, with the same gap as above. The stale-manifest outcome of `IndexProcessor.FailedClearLeavesStaleManifest` and `ChatApp.RestartAfterFailedClear` is the "failed before opening" case; a truncated file would instead make the next start raise.
- IndexProcessor.FailedClearLeavesStaleManifest: models only a manifest write that fails before the file is truncated; see the two lines above.
- ChatApp.RestartAfterFailedClear: models only a manifest write that fails before the file is truncated; a corrupted manifest file would make the restart itself raise, which `ChatApp.Init` does not model.
- ChatApp.AskQuestion: a failed history write is taken to append nothing. The file is opened in append mode (src/app.py:336-337), so a failure partway through the write can leave part of the line behind.
- `PromptTemplate.Format`: does not model format specs, conversions, attribute or index access in fields (`{a.b}`, `{a!r}`, `{a:>5}`). Such fields are read as plain names, so only the missing-key and brace errors are modelled. Because `question` is a bound name, an earlier question such as `{question!r}`, `{question:>5}` or `{question[0]}` in the conversation context formats in the source, so the next turn goes ahead, while the model fails that turn with a missing key `question!r`, `question:>5` or `question[0]`.
- PromptTemplate.Parse: a field runs to the first `}`, and any `{` before it is rejected as `BraceInFieldName`. Python's parser counts nested braces to find the end of a field, so it accepts a nested field inside a format spec (`{a:{b}}`), which the model rejects. It reports a `{` in a field name as "unexpected '{' in field name", or as "expected '}' before end of string" when the braces never balance; the model uses one error for both.
- `PromptTemplate.Format`: reports the first missing key. LangChain checks every input variable before formatting and names all the missing ones in one error; whether formatting fails is the same.
- `PromptTemplate.Format`: the prompt-template library's own `ValueError` and `KeyError` messages are not modelled, only which error kind occurs.
- The stuff-documents chain's document formatting is a parameter. So is the chain's own check that a `context` variable is present.
- A missing question-history file at start-up is not modelled: the source then never sets the history list and later handlers fail. `Init` takes the file's lines.
- A question containing a newline is not modelled in its history-file line. It is written as one entry but reads back as several lines.
- The `allow_dangerous_deserialization` flag and the API key are not modelled.
- `show_history` and `HistoryDialog.update_history_list` only display the question list, so they are not modelled.

## Findings

| source | as written | input that shows it | evidently intended | confidence | as-written member | corrected member |
|---|---|---|---|---|---|---|
| src/utils.py:48-67 | the conversation context is interpolated into the f-string and the result is parsed again as a format template, so braces in earlier questions or answers become format fields | ask `{x}`, then ask any question: the second prompt fails with a missing key `x` (or with a brace parse error, if the answer to `{x}` holds a malformed brace), and every later question fails the same way until the chat is cleared | the conversation context reaches the prompt verbatim, for example by escaping its braces | not executed | ChatApp.BracedTurnBlocksLaterTurns | ChatApp.CorrectedReply |

`ChatApp.AnswerTurn` models the handler as written. It formats the source's template through `ChatApp.Reply`, so after a `{x}` question the chat is blocked, as `ChatApp.BracedTurnBlocksEveryLaterQuestion` shows. Braces in an answer matter too: a lone `}` or an unclosed `{` in any windowed answer makes building the template raise before any value is looked up. `ChatApp.CorrectedReply` is the intended turn. `PromptTemplate.CorrectedTemplateRenders` shows that its prompt always formats. `ChatApp.ReplyAgreesWithCorrected` shows that the two replies agree while the conversation holds no brace.

=== FILE: chat_app.dfy ===
/** `PDFChatApp` as a session record and its event handlers as transitions, with the widgets reduced
    to the state they hold: the pending upload list, whether "Process" and "Ask" are enabled, the
    question box, the language selector and the chat pane. `HistoryDialog.clear_history` operates
    on the same question list as the window, so it is a transition here too. */
module ChatApp {
  import opened Wrappers
  import opened Strings
  import opened Conversation
  import IndexProcessor
  import PromptTemplate

  /** A failure inside a question turn; it is shown in the chat pane. */
  datatype QueryError =
    | DetectionFailed
    | IndexUnavailable
    | SearchFailed
    | PromptFailed(error: PromptTemplate.FormatError)
    | GenerationFailed

  /** What a handler appends to the chat pane. */
  datatype Notice =
    | AllAlreadyProcessed
    | SelectedNew(count: nat)
    | ProcessingComplete
    | ProcessingError(cause: IndexProcessor.ProcessorError)
    | QuestionShown(question: string)
    | ResponseShown(response: string)
    | TurnFailed(failure: QueryError)
    | IndexCleared
    | ClearFailed(cause: IndexProcessor.ProcessorError)

  datatype Session = Session(
    processor: IndexProcessor.Processor,
    pending: seq<string>,          // files selected and not yet processed
    processEnabled: bool,
    askEnabled: bool,
    input: string,                 // the question box
    language: string,              // the response-language selector
    turns: seq<Turn>,              // answered turns of this chat
    questions: seq<string>,        // every question asked, across restarts
    historyFile: seq<string>,      // the lines of the question-history file
    chat: seq<Notice>)

  /** Raised out of a handler instead of being shown: a failed write of the question-history file. */
  datatype Escaped = HistoryWriteFailed

  /** The session after a handler, and the exception that escaped it if any. */
  datatype AppStep = AppStep(state: Session, escaped: Option<Escaped>)

  /** The collaborators of a question turn: language detection, loading the index, similarity
      search over the stored chunks, the answer chain (the wording of its prompt template, its
      document formatting and the language model), and whether appending to the question-history
      file fails. The chain `get_conversational_chain` builds has the wording
      `PromptTemplate.AnswerWording`; every property below holds for any wording. */
  datatype QueryEnv = QueryEnv(
    detect: string -> Option<string>,
    indexLoadFails: bool,
    search: (seq<string>, string) -> Option<seq<string>>,
    wording: PromptTemplate.Wording,
    formatDocs: seq<string> -> string,
    generate: string -> Option<string>,
    historyWriteFails: bool)

  /** Each history line with surrounding whitespace removed. */
  function StripLines(lines: seq<string>): (r: seq<string>)
    ensures |r| == |lines|
    ensures forall i | 0 <= i < |lines| :: r[i] == Strip(lines[i])
  {
    if lines == [] then [] else [Strip(lines[0])] + StripLines(lines[1..])
  }

  /** `PDFChatApp.__init__`: the processor opens the stored manifest, nothing is pending, the chat
      is empty, the question history is read back from its file, and "Ask" is enabled exactly when
      the manifest lists a file. */
  function Init(manifest: IndexProcessor.ManifestFile, indexOnDisk: Option<seq<string>>, historyLines: seq<string>): (s: Session)
    ensures s.processor == IndexProcessor.Open(manifest, indexOnDisk)
    ensures s.pending == [] && !s.processEnabled && s.turns == [] && s.chat == []
    ensures s.askEnabled <==> |IndexProcessor.LoadIndexInfo(manifest).processedFiles| > 0
    ensures s.language == Auto
    ensures |s.questions| == |historyLines|
    ensures forall i | 0 <= i < |historyLines| :: s.questions[i] == Strip(historyLines[i])
    ensures s.historyFile == historyLines && s.input == ""
  {
    var p := IndexProcessor.Open(manifest, indexOnDisk);
    Session(p, [], false, |p.info.processedFiles| > 0, "", Auto, [], StripLines(historyLines), historyLines, [])
  }

  /** The selected files whose base name is not among `existing`, in selection order. */
  function NewFiles(files: seq<string>, existing: seq<string>, basename: string -> string): (r: seq<string>)
    ensures |r| <= |files|
    ensures forall f | f in r :: f in files && basename(f) !in existing
    ensures forall f | f in files && basename(f) !in existing :: f in r
  {
    if files == [] then []
    else NewFiles(files[..|files| - 1], existing, basename)
         + (if basename(files[|files| - 1]) in existing then [] else [files[|files| - 1]])
  }

  /** The filter keeps selection order: filtering two selections one after the other is filtering
      their concatenation. */
  lemma {:induction false} NewFilesAppend(a: seq<string>, b: seq<string>, existing: seq<string>, basename: string -> string)
    ensures NewFiles(a + b, existing, basename) == NewFiles(a, existing, basename) + NewFiles(b, existing, basename)
    decreases |b|
  {
    if b == [] {
      assert a + b == a;
    } else {
      var b', last := b[..|b| - 1], b[|b| - 1];
      var tail := if basename(last) in existing then [] else [last];
      assert (a + b)[..|a + b| - 1] == a + b' && (a + b)[|a + b| - 1] == last;
      assert NewFiles(a + b, existing, basename) == NewFiles(a + b', existing, basename) + tail;
      NewFilesAppend(a, b', existing, basename);
      assert NewFiles(b, existing, basename) == NewFiles(b', existing, basename) + tail;
    }
  }

  /** `upload_pdfs` after the file dialog returned `files`. An empty selection changes nothing.
      Otherwise the pending list becomes the files not yet in the manifest, and "Process" is enabled
      when there is at least one; when there is none, its state is left as it was. */
  function UploadPdfs(s: Session, files: seq<string>, basename: string -> string): (r: Session)
    ensures files == [] ==> r == s
    ensures files != [] ==>
              r.pending == NewFiles(files, IndexProcessor.Filenames(s.processor.info), basename)
    ensures files != [] && r.pending != [] ==> r.processEnabled && r.chat == s.chat + [SelectedNew(|r.pending|)]
    ensures files != [] && r.pending == [] ==> r.processEnabled == s.processEnabled && r.chat == s.chat + [AllAlreadyProcessed]
    ensures r.(pending := s.pending, processEnabled := s.processEnabled, chat := s.chat) == s
  {
    if files == [] then s
    else
      var selected := NewFiles(files, IndexProcessor.Filenames(s.processor.info), basename);
      if selected == [] then s.(pending := [], chat := s.chat + [AllAlreadyProcessed])
      else s.(pending := selected, processEnabled := true, chat := s.chat + [SelectedNew(|selected|)])
  }

  /** No pending file has a base name the manifest already records, right after an upload. */
  lemma UploadPendsOnlyNewNames(s: Session, files: seq<string>, basename: string -> string)
    ensures forall f | f in UploadPdfs(s, files, basename).pending && files != [] ::
              basename(f) !in IndexProcessor.Filenames(s.processor.info)
  {
  }

  /** A selection of files that are all processed already leaves "Process" in whatever state it
      had, but pressing it then does nothing, whatever processing would do. */
  lemma KnownOnlySelectionIsInert(s: Session, files: seq<string>, basename: string -> string, env: IndexProcessor.IngestEnv)
    requires files != [] && NewFiles(files, IndexProcessor.Filenames(s.processor.info), basename) == []
    ensures UploadPdfs(s, files, basename).processEnabled == s.processEnabled
    ensures ProcessPdfs(UploadPdfs(s, files, basename), env) == UploadPdfs(s, files, basename)
  {
  }

  /** `process_pdfs` of the window. With nothing pending it does nothing. On success the manifest
      and index are updated, "Ask" is enabled, the pending list is emptied and "Process" disabled.
      On failure the error is shown and the pending list stays, while whatever the processor
      changed before raising stays changed. */
  function ProcessPdfs(s: Session, env: IndexProcessor.IngestEnv): (r: Session)
    ensures s.pending == [] ==> r == s
    ensures s.pending != [] ==> r.processor == IndexProcessor.ProcessPdfs(s.processor, s.pending, env).state
    ensures s.pending != [] && IndexProcessor.ProcessPdfs(s.processor, s.pending, env).raised.None? ==>
              && r.pending == [] && !r.processEnabled && r.askEnabled
              && r.chat == s.chat + [ProcessingComplete]
    ensures s.pending != [] && IndexProcessor.ProcessPdfs(s.processor, s.pending, env).raised.Some? ==>
              && r.pending == s.pending && r.processEnabled == s.processEnabled && r.askEnabled == s.askEnabled
              && r.chat == s.chat + [ProcessingError(IndexProcessor.ProcessPdfs(s.processor, s.pending, env).raised.value)]
    ensures r.(processor := s.processor, pending := s.pending, processEnabled := s.processEnabled,
               askEnabled := s.askEnabled, chat := s.chat) == s
  {
    if s.pending == [] then s
    else
      var step := IndexProcessor.ProcessPdfs(s.processor, s.pending, env);
      match step.raised
      case None =>
        s.(processor := step.state, askEnabled := true, chat := s.chat + [ProcessingComplete],
           pending := [], processEnabled := false)
      case Some(e) =>
        s.(processor := step.state, chat := s.chat + [ProcessingError(e)])
  }

  /** Detection, loading the index and the similarity search all succeed for `question`. */
  predicate Retrieved(s: Session, question: string, env: QueryEnv)
  {
    && env.detect(question).Some?
    && s.processor.index.Some? && !env.indexLoadFails
    && env.search(s.processor.index.value, question).Some?
  }

  /** The prompt the answer chain formats for a question in `questionLanguage` with the retrieved
      `docs`: the source's template, with the conversation context of the turns so far spliced
      into it, filled with the formatted documents, the question, its language and the output
      language. When the context holds no brace this is the intended prompt; a last question `{x}`
      after plain turns makes it fail, on the missing key `x` unless the last answer carries
      braces. */
  function TurnPrompt(s: Session, question: string, questionLanguage: string, docs: seq<string>, env: QueryEnv): (r: Result<string, PromptTemplate.FormatError>)
    ensures PromptTemplate.NoBraces(ConversationContext(s.turns)) ==>
              r == Success(PromptTemplate.PromptText(env.wording, env.formatDocs(docs),
                                                     ConversationContext(s.turns), question, questionLanguage,
                                                     OutputLanguage(s.language, questionLanguage)))
    ensures |s.turns| > 0 && s.turns[|s.turns| - 1].question == "{x}" && PlainTurns(s.turns[..|s.turns| - 1]) ==>
              r.Failure?
    ensures (&& |s.turns| > 0 && s.turns[|s.turns| - 1].question == "{x}" && PlainTurns(s.turns[..|s.turns| - 1])
             && PromptTemplate.NoBraces(s.turns[|s.turns| - 1].answer)) ==>
              r == Failure(PromptTemplate.MissingKey("x"))
  {
    var outputLanguage := OutputLanguage(s.language, questionLanguage);
    PromptTemplate.AsWrittenRendersWithoutBraces(env.wording, env.formatDocs(docs), ConversationContext(s.turns),
                                                 question, questionLanguage, outputLanguage);
    var prompt := PromptTemplate.Format(
      PromptTemplate.Source(PromptTemplate.AsWrittenTemplate(env.wording, ConversationContext(s.turns))),
      PromptTemplate.PromptVars(env.formatDocs(docs), question, questionLanguage, outputLanguage));
    if |s.turns| > 0 && s.turns[|s.turns| - 1].question == "{x}" && PlainTurns(s.turns[..|s.turns| - 1]) then
      BracedQuestionBreaksAsWrittenPrompt(env.wording, s.turns, env.formatDocs(docs), question, questionLanguage, outputLanguage);
      prompt
    else prompt
  }

  /** The prompt of a turn whose detection and search succeeded. */
  function RetrievedPrompt(s: Session, question: string, env: QueryEnv): Result<string, PromptTemplate.FormatError>
    requires Retrieved(s, question, env)
  {
    TurnPrompt(s, question, env.detect(question).value, env.search(s.processor.index.value, question).value, env)
  }

  /** The body of the `try` in `ask_question`, for a question already logged: detect its language,
      load the index and search it, build the chain's prompt from the retrieved documents and the
      last turns, and ask the model. The first step that fails decides the error. */
  function Reply(s: Session, question: string, env: QueryEnv): (r: Result<string, QueryError>)
    ensures r.Success? <==>
              && Retrieved(s, question, env)
              && RetrievedPrompt(s, question, env).Success?
              && env.generate(RetrievedPrompt(s, question, env).value).Some?
    ensures r.Success? ==> r.value == env.generate(RetrievedPrompt(s, question, env).value).value
    ensures env.detect(question).None? ==> r == Failure(DetectionFailed)
    ensures env.detect(question).Some? && (s.processor.index.None? || env.indexLoadFails) ==> r == Failure(IndexUnavailable)
    ensures (&& env.detect(question).Some? && s.processor.index.Some? && !env.indexLoadFails
             && env.search(s.processor.index.value, question).None?) ==> r == Failure(SearchFailed)
    ensures Retrieved(s, question, env) && RetrievedPrompt(s, question, env).Failure? ==>
              r == Failure(PromptFailed(RetrievedPrompt(s, question, env).error))
    ensures (&& Retrieved(s, question, env) && RetrievedPrompt(s, question, env).Success?
             && env.generate(RetrievedPrompt(s, question, env).value).None?) ==> r == Failure(GenerationFailed)
  {
    match env.detect(question)
    case None => Failure(DetectionFailed)
    case Some(questionLanguage) =>
      if s.processor.index.None? || env.indexLoadFails then Failure(IndexUnavailable)
      else
        match env.search(s.processor.index.value, question)
        case None => Failure(SearchFailed)
        case Some(docs) =>
          match TurnPrompt(s, question, questionLanguage, docs, env)
          case Failure(e) => Failure(PromptFailed(e))
          case Success(prompt) =>
            match env.generate(prompt)
            case None => Failure(GenerationFailed)
            case Some(response) => Success(response)
  }

  /** The turn as the source runs it. A success records the turn with the response as returned
      and shows the cleaned response; any failure shows an error and records nothing. */
  function AnswerTurn(s: Session, question: string, env: QueryEnv): (r: Session)
    ensures r.(turns := s.turns, chat := s.chat) == s
    ensures |r.chat| == |s.chat| + 1 && r.chat[..|s.chat|] == s.chat
    ensures r.turns == s.turns || (|r.turns| == |s.turns| + 1 && r.turns[..|s.turns|] == s.turns)
    ensures r.turns != s.turns <==> Reply(s, question, env).Success?
    ensures r.turns != s.turns ==>
              && r.turns[|s.turns|] == Turn(question, Reply(s, question, env).value)
              && r.chat[|s.chat|] == ResponseShown(Sanitize(Reply(s, question, env).value))
    ensures r.turns == s.turns ==> r.chat[|s.chat|] == TurnFailed(Reply(s, question, env).error)
  {
    match Reply(s, question, env)
    case Success(response) =>
      s.(turns := s.turns + [Turn(question, response)], chat := s.chat + [ResponseShown(Sanitize(response))])
    case Failure(e) => s.(chat := s.chat + [TurnFailed(e)])
  }

  /** The turn with the conversation context kept literal in the template: it fails only in
      detection, loading, search or generation, and the model receives the intended prompt. */
  function CorrectedReply(s: Session, question: string, env: QueryEnv): (r: Result<string, QueryError>)
    ensures r.Success? <==> Retrieved(s, question, env) && env.generate(IntendedPrompt(s, question, env)).Some?
    ensures r.Success? ==> r.value == env.generate(IntendedPrompt(s, question, env)).value
    ensures r.Failure? ==> !r.error.PromptFailed?
  {
    match env.detect(question)
    case None => Failure(DetectionFailed)
    case Some(questionLanguage) =>
      if s.processor.index.None? || env.indexLoadFails then Failure(IndexUnavailable)
      else
        match env.search(s.processor.index.value, question)
        case None => Failure(SearchFailed)
        case Some(docs) =>
          var outputLanguage := OutputLanguage(s.language, questionLanguage);
          var vars := PromptTemplate.PromptVars(env.formatDocs(docs), question, questionLanguage, outputLanguage);
          PromptTemplate.CorrectedTemplateRenders(env.wording, env.formatDocs(docs), ConversationContext(s.turns),
                                                  question, questionLanguage, outputLanguage);
          var prompt := PromptTemplate.Format(PromptTemplate.Source(PromptTemplate.CorrectedTemplate(env.wording, ConversationContext(s.turns))), vars).value;
          match env.generate(prompt)
          case None => Failure(GenerationFailed)
          case Some(response) => Success(response)
  }

  /** The intended prompt of a turn whose detection and search succeeded. */
  function IntendedPrompt(s: Session, question: string, env: QueryEnv): string
    requires Retrieved(s, question, env)
  {
    var questionLanguage := env.detect(question).value;
    PromptTemplate.PromptText(env.wording,
      env.formatDocs(env.search(s.processor.index.value, question).value), ConversationContext(s.turns),
      question, questionLanguage, OutputLanguage(s.language, questionLanguage))
  }

  /** While the conversation context holds no brace, the source's turn and the corrected one are
      the same; in particular while no question or answer so far holds one. */
  lemma ReplyAgreesWithCorrected(s: Session, question: string, env: QueryEnv)
    requires PromptTemplate.NoBraces(ConversationContext(s.turns)) || PlainTurns(s.turns)
    ensures Reply(s, question, env) == CorrectedReply(s, question, env)
  {
    if PlainTurns(s.turns) {
      PlainTurnsPlainContext(s.turns);
    }
  }

  /** `ask_question`. A question that is empty after stripping changes nothing. Otherwise the
      question is shown, the box is cleared, and the question is appended to the history file and
      the question list before any external call; then the turn is attempted. A failed history
      write escapes the handler before the question list changes. */
  function AskQuestion(s: Session, env: QueryEnv): (r: AppStep)
    ensures Strip(s.input) == "" ==> r == AppStep(s, None)
    ensures Strip(s.input) != "" && env.historyWriteFails ==>
              r == AppStep(s.(input := "", chat := s.chat + [QuestionShown(Strip(s.input))]), Some(HistoryWriteFailed))
    ensures Strip(s.input) != "" && !env.historyWriteFails ==>
              && r.escaped.None?
              && r.state.questions == s.questions + [Strip(s.input)]
              && r.state.historyFile == s.historyFile + [Strip(s.input)]
              && r.state.input == ""
              && |r.state.chat| == |s.chat| + 2
              && r.state.chat[..|s.chat| + 1] == s.chat + [QuestionShown(Strip(s.input))]
    ensures Strip(s.input) != "" && !env.historyWriteFails ==>
              r.state == AnswerTurn(s.(input := "", chat := s.chat + [QuestionShown(Strip(s.input))],
                                       questions := s.questions + [Strip(s.input)],
                                       historyFile := s.historyFile + [Strip(s.input)]), Strip(s.input), env)
  {
    var question := Strip(s.input);
    if question == "" then AppStep(s, None)
    else
      var shown := s.(input := "", chat := s.chat + [QuestionShown(question)]);
      if env.historyWriteFails then AppStep(shown, Some(HistoryWriteFailed))
      else
        var logged := shown.(questions := shown.questions + [question], historyFile := shown.historyFile + [question]);
        var answered := AnswerTurn(logged, question, env);
        assert |answered.chat| == |logged.chat| + 1 && answered.chat[..|logged.chat|] == logged.chat;
        AppStep(answered, None)
  }

  /** A question is logged even when its turn fails, and a failed turn adds no turn and shows
      the failure, whichever step failed. */
  lemma FailedTurnStaysLogged(s: Session, env: QueryEnv)
    requires Strip(s.input) != "" && !env.historyWriteFails
    requires Reply(s, Strip(s.input), env).Failure?
    ensures AskQuestion(s, env).state.questions == s.questions + [Strip(s.input)]
    ensures AskQuestion(s, env).state.turns == s.turns
    ensures AskQuestion(s, env).state.chat == s.chat + [QuestionShown(Strip(s.input)), TurnFailed(Reply(s, Strip(s.input), env).error)]
  {
    var question := Strip(s.input);
    var logged := s.(input := "", chat := s.chat + [QuestionShown(question)],
                     questions := s.questions + [question], historyFile := s.historyFile + [question]);
    ReplyReadsTurnState(s, logged, question, env);
    assert AskQuestion(s, env).state == AnswerTurn(logged, question, env);
  }

  /** A question whose turn succeeds is logged, then recorded as a turn with the response as the
      model returned it, and the chat shows the question and the cleaned response; nothing else
      changes. */
  lemma AnsweredTurnRecorded(s: Session, env: QueryEnv)
    requires Strip(s.input) != "" && !env.historyWriteFails
    requires Reply(s, Strip(s.input), env).Success?
    ensures var r := AskQuestion(s, env);
      var question := Strip(s.input);
      && r.escaped.None?
      && r.state.turns == s.turns + [Turn(question, Reply(s, question, env).value)]
      && r.state.chat == s.chat + [QuestionShown(question), ResponseShown(Sanitize(Reply(s, question, env).value))]
      && r.state.questions == s.questions + [question]
      && r.state.historyFile == s.historyFile + [question]
      && r.state.input == ""
      && r.state.(turns := s.turns, chat := s.chat, questions := s.questions, historyFile := s.historyFile, input := s.input) == s
  {
    var question := Strip(s.input);
    var logged := s.(input := "", chat := s.chat + [QuestionShown(question)],
                     questions := s.questions + [question], historyFile := s.historyFile + [question]);
    ReplyReadsTurnState(s, logged, question, env);
  }

  /** A reply depends only on the processor, the turns and the language selection. */
  lemma ReplyReadsTurnState(s: Session, t: Session, question: string, env: QueryEnv)
    requires s.processor == t.processor && s.turns == t.turns && s.language == t.language
    ensures Reply(s, question, env) == Reply(t, question, env)
  {
  }

  /** Once the last turn's question is `{x}` and the turns before it hold no brace, no question
      can add a turn: the source's prompt fails to format as soon as the search succeeds (on the
      missing key `x` when the last answer holds no brace), and the turns stay as they were, so
      every later question fails the same way until the chat is cleared. */
  lemma BracedTurnBlocksLaterTurns(s: Session, env: QueryEnv)
    requires |s.turns| > 0 && s.turns[|s.turns| - 1].question == "{x}"
    requires PlainTurns(s.turns[..|s.turns| - 1])
    ensures AskQuestion(s, env).state.turns == s.turns
    ensures Strip(s.input) != "" && !env.historyWriteFails && Retrieved(s, Strip(s.input), env) ==>
              && AskQuestion(s, env).state.chat[|s.chat| + 1].TurnFailed?
              && AskQuestion(s, env).state.chat[|s.chat| + 1].failure.PromptFailed?
    ensures (&& Strip(s.input) != "" && !env.historyWriteFails && Retrieved(s, Strip(s.input), env)
             && PromptTemplate.NoBraces(s.turns[|s.turns| - 1].answer)) ==>
              AskQuestion(s, env).state.chat[|s.chat| + 1] == TurnFailed(PromptFailed(PromptTemplate.MissingKey("x")))
  {
    var question := Strip(s.input);
    if question != "" && !env.historyWriteFails {
      var logged := s.(input := "", chat := s.chat + [QuestionShown(question)],
                       questions := s.questions + [question], historyFile := s.historyFile + [question]);
      ReplyReadsTurnState(s, logged, question, env);
    }
  }

  /** Asks each question in turn, typing it into the box first. An error escaping a handler ends
      the application, so the questions after it are never asked. */
  function AskEach(s: Session, asks: seq<(string, QueryEnv)>): (r: Session)
    ensures |r.questions| <= |s.questions| + |asks|
    ensures r.processor == s.processor
    decreases |asks|
  {
    if asks == [] then s
    else
      var step := AskQuestion(s.(input := asks[0].0), asks[0].1);
      if step.escaped.Some? then step.state else AskEach(step.state, asks[1..])
  }

  /** After a `{x}` question following brace-free turns, no sequence of later questions adds a
      turn, whatever the collaborators do. */
  lemma {:induction false} BracedTurnBlocksEveryLaterQuestion(s: Session, asks: seq<(string, QueryEnv)>)
    requires |s.turns| > 0 && s.turns[|s.turns| - 1].question == "{x}"
    requires PlainTurns(s.turns[..|s.turns| - 1])
    ensures AskEach(s, asks).turns == s.turns
    decreases |asks|
  {
    if asks != [] {
      var typed := s.(input := asks[0].0);
      BracedTurnBlocksLaterTurns(typed, asks[0].1);
      BracedTurnBlocksEveryLaterQuestion(AskQuestion(typed, asks[0].1).state, asks[1..]);
    }
  }

  /** `clear_index` of the window: on success "Ask" is disabled and a notice shown; on failure the
      error is shown and whatever the processor changed before raising stays changed. */
  function ClearIndex(s: Session, removeFails: bool, manifestSaveFails: bool): (r: Session)
    ensures r.processor == IndexProcessor.ClearIndex(s.processor, removeFails, manifestSaveFails).state
    ensures IndexProcessor.ClearIndex(s.processor, removeFails, manifestSaveFails).raised.None? ==>
              !r.askEnabled && r.chat == s.chat + [IndexCleared]
    ensures IndexProcessor.ClearIndex(s.processor, removeFails, manifestSaveFails).raised.Some? ==>
              && r.askEnabled == s.askEnabled
              && r.chat == s.chat + [ClearFailed(IndexProcessor.ClearIndex(s.processor, removeFails, manifestSaveFails).raised.value)]
    ensures r.(processor := s.processor, askEnabled := s.askEnabled, chat := s.chat) == s
  {
    var step := IndexProcessor.ClearIndex(s.processor, removeFails, manifestSaveFails);
    match step.raised
    case None => s.(processor := step.state, askEnabled := false, chat := s.chat + [IndexCleared])
    case Some(e) => s.(processor := step.state, chat := s.chat + [ClearFailed(e)])
  }

  /** `clear_chat_history`: the chat pane and the conversation turns are emptied; the question
      history is kept. */
  function ClearChatHistory(s: Session): (r: Session)
    ensures r.turns == [] && r.chat == []
    ensures r.questions == s.questions && r.historyFile == s.historyFile
    ensures r.(turns := s.turns, chat := s.chat) == s
  {
    s.(turns := [], chat := [])
  }

  /** `HistoryDialog.clear_history`: the question list is emptied, then the history file is
      truncated; a failed truncation escapes after the list is already empty. The conversation
      turns are kept. */
  function ClearQuestionHistory(s: Session, truncateFails: bool): (r: AppStep)
    ensures r.state.questions == [] && r.state.turns == s.turns
    ensures r.escaped.None? <==> !truncateFails
    ensures r.escaped.None? ==> r.state.historyFile == []
    ensures r.escaped.Some? ==> r.state.historyFile == s.historyFile
    ensures r.state.(questions := s.questions, historyFile := s.historyFile) == s
  {
    var cleared := s.(questions := []);
    if truncateFails then AppStep(cleared, Some(HistoryWriteFailed)) else AppStep(cleared.(historyFile := []), None)
  }

  /** The two clears are independent: clearing the chat keeps the question history and clearing the
      question history keeps the turns, in either order. */
  lemma ClearsCommute(s: Session)
    ensures ClearQuestionHistory(ClearChatHistory(s), false).state == ClearChatHistory(ClearQuestionHistory(s, false).state)
  {
  }

  /** Session invariant: pending files imply an enabled "Process" button, and the manifest in
      memory never names files while the index is missing. */
  predicate Invariant(s: Session)
  {
    && (|s.pending| > 0 ==> s.processEnabled)
    && IndexProcessor.Consistent(s.processor)
  }

  /** Every handler keeps the session invariant, whatever the collaborators do. The manifest file
      on disk is another matter: see `RestartAfterFailedClear`. */
  lemma HandlersKeepInvariant(s: Session, files: seq<string>, basename: string -> string,
                              ingest: IndexProcessor.IngestEnv, query: QueryEnv,
                              removeFails: bool, manifestSaveFails: bool, truncateFails: bool)
    requires Invariant(s)
    ensures Invariant(UploadPdfs(s, files, basename))
    ensures Invariant(ProcessPdfs(s, ingest))
    ensures Invariant(AskQuestion(s, query).state)
    ensures Invariant(ClearIndex(s, removeFails, manifestSaveFails))
    ensures Invariant(ClearChatHistory(s))
    ensures Invariant(ClearQuestionHistory(s, truncateFails).state)
  {
    IndexProcessor.OperationsKeepConsistent(s.processor, s.pending, ingest, removeFails, manifestSaveFails);
  }

  /** A fresh window satisfies the invariant exactly when the stored manifest lists files only if
      the index directory exists, and its "Ask" button matches the manifest. */
  lemma InitEstablishesInvariant(manifest: IndexProcessor.ManifestFile, indexOnDisk: Option<seq<string>>, historyLines: seq<string>)
    ensures Invariant(Init(manifest, indexOnDisk, historyLines))
            <==> (|IndexProcessor.LoadIndexInfo(manifest).processedFiles| > 0 ==> indexOnDisk.Some?)
    ensures AskMatchesManifest(Init(manifest, indexOnDisk, historyLines))
  {
  }

  /** A clear whose index removal succeeds but whose manifest write fails leaves the old manifest
      file behind. After a restart the window reads it back: "Ask" is enabled with no index, the
      invariant is broken, every question fails to load the index, and the upload filter turns
      down the files the stale manifest names. */
  lemma RestartAfterFailedClear(s: Session, removeFails: bool, historyLines: seq<string>, files: seq<string>, basename: string -> string)
    requires !(s.processor.index.Some? && removeFails)
    requires |IndexProcessor.LoadIndexInfo(s.processor.saved).processedFiles| > 0
    ensures var cleared := ClearIndex(s, removeFails, true);
      var restarted := Init(cleared.processor.saved, cleared.processor.index, historyLines);
      && cleared.chat == s.chat + [ClearFailed(IndexProcessor.ManifestSaveFailed)]
      && restarted.askEnabled && !Invariant(restarted)
      && (forall question: string, env: QueryEnv :: env.detect(question).Some? ==> Reply(restarted, question, env) == Failure(IndexUnavailable))
      && (forall f | f in UploadPdfs(restarted, files, basename).pending ::
            basename(f) !in IndexProcessor.Filenames(IndexProcessor.LoadIndexInfo(s.processor.saved)))
  {
    IndexProcessor.FailedClearLeavesStaleManifest(s.processor, removeFails);
  }

  /** "Ask" is enabled exactly when the manifest lists a file. */
  predicate AskMatchesManifest(s: Session)
  {
    s.askEnabled <==> |s.processor.info.processedFiles| > 0
  }

  /** While the manifest file can be written, the "Ask" button tracks the manifest through
      processing and clearing. */
  lemma AskTracksManifest(s: Session, ingest: IndexProcessor.IngestEnv, removeFails: bool)
    requires AskMatchesManifest(s)
    requires !ingest.manifestSaveFails
    ensures AskMatchesManifest(ProcessPdfs(s, ingest))
    ensures AskMatchesManifest(ClearIndex(s, removeFails, false))
  {
  }

  /** When writing the manifest fails after the index was saved, the in-memory manifest already
      lists the files while they stay pending; processing them again records every one of them
      twice. */
  lemma RetryAfterManifestSaveFailure(s: Session, first: IndexProcessor.IngestEnv, second: IndexProcessor.IngestEnv)
    requires s.pending != []
    requires IndexProcessor.ProcessPdfs(s.processor, s.pending, first).raised == Some(IndexProcessor.ManifestSaveFailed)
    requires first.basename == second.basename
    ensures var retried := ProcessPdfs(ProcessPdfs(s, first), second);
      IndexProcessor.ProcessPdfs(ProcessPdfs(s, first).processor, s.pending, second).raised.None? ==>
        retried.processor.info.processedFiles
        == s.processor.info.processedFiles
           + IndexProcessor.Records(s.pending, first.basename) + IndexProcessor.Records(s.pending, first.basename)
  {
  }
}

=== FILE: conversation.dfy ===
/** The pure parts of a question turn in `PDFChatApp.ask_question`: the conversation context built
    from the last turns, the output-language choice, and the cleanup of the displayed response. */
module Conversation {
  import opened Strings
  import opened Wrappers
  import PromptTemplate

  /** One answered question, with the response as the model returned it. */
  datatype Turn = Turn(question: string, answer: string)

  /** The entries of the response-language selector (src/app.py:212); the first means "answer in
      the question's language". */
  const Auto := "Auto (Same as Question)"
  const LanguageChoices := [Auto, "English", "Italian", "Spanish", "French", "German"]

  /** The output language: the detected question language under the automatic entry, the selected
      entry otherwise. */
  function OutputLanguage(selected: string, detected: string): (r: string)
    ensures selected == Auto ==> r == detected
    ensures selected != Auto ==> r == selected
  {
    if selected == Auto then detected else selected
  }

  /** With the selector on one of its entries, the answer language is the detected language or one
      of the fixed languages, and it is the detected one whenever the automatic entry is chosen. */
  lemma OutputLanguageFromSelector(selected: string, detected: string)
    requires selected in LanguageChoices
    ensures OutputLanguage(selected, detected) == detected || OutputLanguage(selected, detected) in LanguageChoices[1..]
    ensures OutputLanguage(selected, detected) != Auto || detected == Auto
  {
  }

  /** The turns the context shows: the last three, or all of them when there are fewer. */
  function Window(turns: seq<Turn>): (w: seq<Turn>)
    ensures |w| == if |turns| < 3 then |turns| else 3
    ensures forall k | 0 <= k < |w| :: w[k] == turns[|turns| - |w| + k]
  {
    if |turns| <= 3 then turns else turns[|turns| - 3..]
  }

  /** The lines for one turn. */
  function TurnLines(t: Turn): string
  {
    "Q: " + t.question + "\nA: " + t.answer + "\n"
  }

  /** The lines for a sequence of turns, in sequence order. */
  function RenderTurns(turns: seq<Turn>): string
  {
    if turns == [] then "" else RenderTurns(turns[..|turns| - 1]) + TurnLines(turns[|turns| - 1])
  }

  const ContextHeader := "\nPrevious conversation:\n"

  /** Reference definition of the conversation context: nothing without prior turns, otherwise the
      header followed by the window's turns, oldest first. */
  function ConversationContext(turns: seq<Turn>): string
  {
    if turns == [] then "" else ContextHeader + RenderTurns(Window(turns))
  }

  lemma {:induction false} RenderTurnsAppend(a: seq<Turn>, b: seq<Turn>)
    ensures RenderTurns(a + b) == RenderTurns(a) + RenderTurns(b)
    decreases |b|
  {
    if b == [] {
      assert a + b == a;
    } else {
      var b', last := b[..|b| - 1], b[|b| - 1];
      assert (a + b)[..|a + b| - 1] == a + b' && (a + b)[|a + b| - 1] == last;
      assert RenderTurns(a + b) == RenderTurns(a + b') + TurnLines(last);
      RenderTurnsAppend(a, b');
      assert RenderTurns(b) == RenderTurns(b') + TurnLines(last);
    }
  }

  /** The context is empty exactly when there are no prior turns. */
  lemma ConversationContextEmpty(turns: seq<Turn>)
    ensures ConversationContext(turns) == "" <==> turns == []
  {
    if turns != [] {
      assert ConversationContext(turns)[0] == ContextHeader[0] == '\n';
    }
  }

  /** With three or more prior turns the context is the header followed by the last three turns,
      oldest first. */
  lemma ConversationContextLastThree(turns: seq<Turn>)
    requires |turns| >= 3
    ensures ConversationContext(turns)
         == ContextHeader + (TurnLines(turns[|turns| - 3]) + TurnLines(turns[|turns| - 2]) + TurnLines(turns[|turns| - 1]))
  {
    var a, b, c := turns[|turns| - 3], turns[|turns| - 2], turns[|turns| - 1];
    assert Window(turns) == [a, b, c] by {
      var w := Window(turns);
      assert |w| == 3 && w[0] == a && w[1] == b && w[2] == c;
    }
    RenderThree(a, b, c);
  }

  lemma RenderThree(a: Turn, b: Turn, c: Turn)
    ensures RenderTurns([a, b, c]) == TurnLines(a) + TurnLines(b) + TurnLines(c)
  {
    assert [a, b, c][..2] == [a, b];
    assert [a, b][..1] == [a];
    SingleTurn(a);
  }

  lemma SingleTurn(t: Turn)
    ensures RenderTurns([t]) == TurnLines(t)
  {
    assert [t][..0] == [];
  }

  /** Only the last three turns matter: turns older than those never reach the prompt. */
  lemma ConversationContextIgnoresOlder(older: seq<Turn>, recent: seq<Turn>)
    requires |recent| >= 3
    ensures ConversationContext(older + recent) == ConversationContext(recent)
  {
    var all := older + recent;
    assert all[|all| - 3..] == recent[|recent| - 3..];
    assert Window(all) == Window(recent);
    assert all != [] && recent != [];
  }

  /** One iteration of the context loop appends the next windowed turn's lines. */
  lemma ContextStep(window: seq<Turn>, i: nat, context: string, line: string)
    requires i < |window|
    requires context == ContextHeader + RenderTurns(window[..i])
    requires line == "Q: " + window[i].question + "\nA: " + window[i].answer + "\n"
    ensures context + line == ContextHeader + RenderTurns(window[..i + 1])
  {
    assert window[..i + 1][..i] == window[..i];
    assert RenderTurns(window[..i + 1]) == RenderTurns(window[..i]) + line;
  }

  /** The context as `ask_question` builds it: start from the empty string and, when there are
      turns, append the header and then each windowed turn in order. */
  method BuildConversationContext(turns: seq<Turn>) returns (context: string)
    ensures context == ConversationContext(turns)
  {
    context := "";
    if |turns| > 0 {
      context := ContextHeader;
      var window := Window(turns);
      var i := 0;
      while i < |window|
        invariant 0 <= i <= |window|
        invariant context == ContextHeader + RenderTurns(window[..i])
      {
        var line := "Q: " + window[i].question + "\nA: " + window[i].answer + "\n";
        ContextStep(window, i, context, line);
        context := context + line;
        i := i + 1;
      }
      assert window[..i] == window;
    }
  }

  /** Turns none of whose questions or answers holds a brace. */
  predicate PlainTurns(turns: seq<Turn>)
  {
    forall i | 0 <= i < |turns| :: PromptTemplate.NoBraces(turns[i].question) && PromptTemplate.NoBraces(turns[i].answer)
  }

  lemma {:induction false} PlainTurnsRenderPlain(turns: seq<Turn>)
    requires PlainTurns(turns)
    ensures PromptTemplate.NoBraces(RenderTurns(turns))
    decreases |turns|
  {
    if turns != [] {
      var init, last := turns[..|turns| - 1], turns[|turns| - 1];
      assert PlainTurns(init) by {
        forall i | 0 <= i < |init| ensures PromptTemplate.NoBraces(init[i].question) && PromptTemplate.NoBraces(init[i].answer) {
          assert init[i] == turns[i];
        }
      }
      PlainTurnsRenderPlain(init);
      TurnLinesPlain(last);
    }
  }

  lemma TurnLinesPlain(t: Turn)
    requires PromptTemplate.NoBraces(t.question) && PromptTemplate.NoBraces(t.answer)
    ensures PromptTemplate.NoBraces(TurnLines(t))
  {
  }

  /** A conversation of plain turns gives a context without braces, which the source's template
      therefore formats to the intended prompt. */
  lemma PlainTurnsPlainContext(turns: seq<Turn>)
    requires PlainTurns(turns)
    ensures PromptTemplate.NoBraces(ConversationContext(turns))
  {
    if turns != [] {
      PlainWindow(turns);
      PlainTurnsRenderPlain(Window(turns));
      HeaderPlain();
    }
  }

  lemma PlainWindow(turns: seq<Turn>)
    requires PlainTurns(turns)
    ensures PlainTurns(Window(turns))
  {
    var window := Window(turns);
    forall i | 0 <= i < |window| ensures PromptTemplate.NoBraces(window[i].question) && PromptTemplate.NoBraces(window[i].answer) {
      var j := |turns| - |window| + i;
      assert window[i] == turns[j];
      assert PromptTemplate.NoBraces(turns[j].question) && PromptTemplate.NoBraces(turns[j].answer);
    }
  }

  lemma HeaderPlain()
    ensures PromptTemplate.NoBraces(ContextHeader) && PromptTemplate.NoBraces("Q: ")
  {
  }

  /** The last turn always closes the context: the context is the header, the lines of the
      windowed turns before it, then its own lines. */
  lemma LastTurnCloses(turns: seq<Turn>)
    requires |turns| > 0
    ensures var window := Window(turns);
      ConversationContext(turns) == ContextHeader + RenderTurns(window[..|window| - 1]) + TurnLines(turns[|turns| - 1])
  {
    ClosingTurn(ContextHeader, turns);
  }

  lemma ClosingTurn(header: string, turns: seq<Turn>)
    requires |turns| > 0
    ensures var window := Window(turns);
      header + RenderTurns(window) == header + RenderTurns(window[..|window| - 1]) + TurnLines(turns[|turns| - 1])
  {
    var window := Window(turns);
    var earlier, closing := RenderTurns(window[..|window| - 1]), TurnLines(turns[|turns| - 1]);
    assert RenderTurns(window) == earlier + closing by {
      assert window[|window| - 1] == turns[|turns| - 1];
    }
    AppendAssoc(header, earlier, closing);
  }

  /** Plain earlier turns leave no brace in front of the last turn's question. */
  lemma PlainBeforeLastQuestion(turns: seq<Turn>)
    requires |turns| > 0 && PlainTurns(turns[..|turns| - 1])
    ensures var window := Window(turns);
      PromptTemplate.NoBraces(ContextHeader + RenderTurns(window[..|window| - 1]) + "Q: ")
  {
    var window := Window(turns);
    var earlier := window[..|window| - 1];
    PlainWindowPrefix(turns);
    PlainTurnsRenderPlain(earlier);
    HeaderPlain();
  }

  /** The windowed turns before the last one are among the turns before the last one. */
  lemma PlainWindowPrefix(turns: seq<Turn>)
    requires |turns| > 0 && PlainTurns(turns[..|turns| - 1])
    ensures var window := Window(turns); PlainTurns(window[..|window| - 1])
  {
    var window := Window(turns);
    var earlier := window[..|window| - 1];
    forall i | 0 <= i < |earlier| ensures PromptTemplate.NoBraces(earlier[i].question) && PromptTemplate.NoBraces(earlier[i].answer) {
      assert earlier[i] == turns[..|turns| - 1][|turns| - |window| + i];
    }
  }

  lemma BracedLines(before: string, last: Turn)
    requires last.question == "{x}"
    ensures before + TurnLines(last) == before + "Q: " + "{" + "x" + "}" + ("\nA: " + last.answer + "\n")
  {
    assert "{x}" == "{" + "x" + "}";
  }

  /** A context containing a brace-delimited name the chain does not supply: a last turn whose
      question is `{x}` produces one, as long as the earlier turns hold no braces that could
      change how it is read. Formatting then fails whatever the answer; the error names `x`
      unless the answer carries braces, whose parsing is reported first when malformed. */
  lemma BracedQuestionBreaksAsWrittenPrompt(w: PromptTemplate.Wording, turns: seq<Turn>, docs: string, question: string, questionLanguage: string, outputLanguage: string)
    requires |turns| > 0 && turns[|turns| - 1].question == "{x}"
    requires PlainTurns(turns[..|turns| - 1])
    ensures PromptTemplate.Format(PromptTemplate.Source(PromptTemplate.AsWrittenTemplate(w, ConversationContext(turns))),
                                  PromptTemplate.PromptVars(docs, question, questionLanguage, outputLanguage)).Failure?
    ensures PromptTemplate.NoBraces(turns[|turns| - 1].answer) ==>
      PromptTemplate.Format(PromptTemplate.Source(PromptTemplate.AsWrittenTemplate(w, ConversationContext(turns))),
                            PromptTemplate.PromptVars(docs, question, questionLanguage, outputLanguage))
      == Failure(PromptTemplate.MissingKey("x"))
  {
    var window := Window(turns);
    var pre := ContextHeader + RenderTurns(window[..|window| - 1]) + "Q: ";
    var post := "\nA: " + turns[|turns| - 1].answer + "\n";
    assert ConversationContext(turns) == pre + "{" + "x" + "}" + post by {
      LastTurnCloses(turns);
      BracedLines(ContextHeader + RenderTurns(window[..|window| - 1]), turns[|turns| - 1]);
    }
    PlainBeforeLastQuestion(turns);
    assert PromptTemplate.NoBraces("x") && "x" !in PromptTemplate.PromptVars(docs, question, questionLanguage, outputLanguage);
    assert PromptTemplate.NoBraces(turns[|turns| - 1].answer) ==> PromptTemplate.NoBraces(post);
    PromptTemplate.AsWrittenFailsOnForeignField(w, docs, ConversationContext(turns), question, questionLanguage, outputLanguage, pre, "x", post);
  }

  /** Characters other than spaces and asterisks, in order: the content cleanup must keep. */
  function Significant(s: string): (r: string)
    ensures |r| <= |s|
  {
    if s == [] then "" else (if s[0] == ' ' || s[0] == '*' then "" else [s[0]]) + Significant(s[1..])
  }

  lemma {:induction false} SignificantAppend(a: string, b: string)
    ensures Significant(a + b) == Significant(a) + Significant(b)
    decreases |a|
  {
    if a != [] {
      assert (a + b)[1..] == a[1..] + b;
      SignificantAppend(a[1..], b);
    } else {
      assert a + b == b;
    }
  }

  /** Cleanup of the displayed response: `replace("  ", " ")`, then `replace("*", "")`, then
      `replace("* ", "")` and `replace("** ", "")`. */
  function Sanitize(response: string): (r: string)
    ensures '*' !in r
  {
    var collapsed := Replace(response, "  ", " ");
    var starless := Replace(collapsed, "*", "");
    ReplaceCharByEmpty(collapsed, '*');
    NoStarNoOccurrence(starless, "* ");
    NoStarNoOccurrence(starless, "** ");
    ReplaceAbsent(starless, "* ", "");
    ReplaceAbsent(starless, "** ", "");
    Replace(Replace(starless, "* ", ""), "** ", "")
  }

  lemma NoStarNoOccurrence(s: string, pat: string)
    requires '*' !in s && |pat| > 0 && pat[0] == '*'
    ensures forall i | 0 <= i <= |s| :: !OccursAt(s, pat, i)
  {
  }

  /** The cleanup is one left-to-right collapse of double spaces followed by dropping every `*`;
      the `"* "` and `"** "` replacements never find anything. */
  lemma SanitizeIsCollapseThenDropStars(response: string)
    ensures Sanitize(response) == Without(Replace(response, "  ", " "), '*')
  {
    var collapsed := Replace(response, "  ", " ");
    var starless := Replace(collapsed, "*", "");
    ReplaceCharByEmpty(collapsed, '*');
    NoStarNoOccurrence(starless, "* ");
    NoStarNoOccurrence(starless, "** ");
    ReplaceAbsent(starless, "* ", "");
    ReplaceAbsent(starless, "** ", "");
  }

  /** Collapsing double spaces keeps every character other than spaces and asterisks. */
  lemma {:induction false} CollapseKeepsSignificant(s: string)
    ensures Significant(Replace(s, "  ", " ")) == Significant(s)
    decreases |s|
  {
    if |s| >= 2 {
      if s[..2] == "  " {
        CollapseKeepsSignificant(s[2..]);
        SignificantAppend(" ", Replace(s[2..], "  ", " "));
        assert s == "  " + s[2..];
        SignificantAppend("  ", s[2..]);
      } else {
        CollapseKeepsSignificant(s[1..]);
        SignificantAppend([s[0]], Replace(s[1..], "  ", " "));
        assert s == [s[0]] + s[1..];
        SignificantAppend([s[0]], s[1..]);
      }
    }
  }

  lemma {:induction false} DropStarsKeepsSignificant(s: string)
    ensures Significant(Without(s, '*')) == Significant(s)
    decreases |s|
  {
    if s != [] {
      DropStarsKeepsSignificant(s[1..]);
      SignificantAppend(if s[0] == '*' then "" else [s[0]], Without(s[1..], '*'));
    }
  }

  /** Cleanup removes only spaces and asterisks: every other character of the response is shown,
      in order. */
  lemma SanitizeKeepsSignificant(response: string)
    ensures Significant(Sanitize(response)) == Significant(response)
  {
    SanitizeIsCollapseThenDropStars(response);
    CollapseKeepsSignificant(response);
    DropStarsKeepsSignificant(Replace(response, "  ", " "));
  }

  /** The cleaned response can still hold a double space: three spaces collapse to two. */
  lemma SanitizeCanLeaveDoubleSpaces()
    ensures Sanitize("a   b") == "a  b"
  {
    SanitizeIsCollapseThenDropStars("a   b");
    CollapseTripleSpace();
    StarFreeUnchanged("a  b");
  }

  lemma CollapseTripleSpace()
    ensures Replace("a   b", "  ", " ") == "a  b"
  {
    assert Replace("b", "  ", " ") == "b";
    assert Replace(" b", "  ", " ") == " b" by { assert " b"[..2][1] == 'b'; assert " b"[1..] == "b"; }
    assert Replace("   b", "  ", " ") == "  b" by { assert "   b"[..2] == "  " && "   b"[2..] == " b"; }
    assert "a   b"[..2][0] == 'a' && "a   b"[1..] == "   b";
  }

  /** Removing a `*` after the collapse can join the spaces around it into a double space. */
  lemma SanitizeCanJoinSpaces()
    ensures Sanitize("a * b") == "a  b"
  {
    SanitizeIsCollapseThenDropStars("a * b");
    CollapseExample();
    DropStarExample();
  }

  lemma DropStarExample()
    ensures Without("a * b", '*') == "a  b"
  {
    assert Without("b", '*') == "b" by { assert "b"[1..] == ""; }
    assert Without(" b", '*') == " b" by { assert " b"[1..] == "b"; }
    assert Without("* b", '*') == " b" by { assert "* b"[1..] == " b"; }
    assert Without(" * b", '*') == "  b" by { assert " * b"[1..] == "* b"; }
    assert "a * b"[1..] == " * b";
  }

  lemma CollapseExample()
    ensures Replace("a * b", "  ", " ") == "a * b"
  {
    assert Replace("b", "  ", " ") == "b";
    assert Replace(" b", "  ", " ") == " b" by { assert " b"[..2][1] == 'b'; assert " b"[1..] == "b"; }
    assert Replace("* b", "  ", " ") == "* b" by { assert "* b"[..2][0] == '*'; assert "* b"[1..] == " b"; }
    assert Replace(" * b", "  ", " ") == " * b" by { assert " * b"[..2][1] == '*'; assert " * b"[1..] == "* b"; }
    assert "a * b"[..2][0] == 'a';
    assert "a * b"[1..] == " * b";
  }

  lemma {:induction false} StarFreeUnchanged(s: string)
    requires '*' !in s
    ensures Without(s, '*') == s
    decreases |s|
  {
    if s != [] {
      StarFreeUnchanged(s[1..]);
      assert [s[0]] + s[1..] == s;
    }
  }
}

=== FILE: index_processor.dfy ===
/** `PDFProcessor`: the manifest of processed files and the vector index it describes.
    The index is modelled by its content, the chunk texts it holds in insertion order; embedding,
    loading and saving are external calls whose only visible effect here is success or failure. */
module IndexProcessor {
  import opened Wrappers
  import PdfText

  /** One entry `{"filename": ...}` of the manifest. */
  datatype FileRecord = FileRecord(filename: string)

  /** The manifest `{"processed_files": [...]}`. */
  datatype IndexInfo = IndexInfo(processedFiles: seq<FileRecord>)

  /** The manifest file on disk. */
  datatype ManifestFile = Absent | Stored(info: IndexInfo)

  /** The processor's state: the manifest in memory, the index directory (absent, or the chunk
      texts it stores) and the manifest file last written. */
  datatype Processor = Processor(info: IndexInfo, index: Option<seq<string>>, saved: ManifestFile)

  /** What an operation raised. */
  datatype ProcessorError =
    | ExtractionFailed(cause: PdfText.ExtractError)
    | IndexLoadFailed
    | EmbeddingFailed
    | IndexSaveFailed
    | ManifestSaveFailed
    | IndexRemoveFailed

  /** The state after an operation, and the exception it raised if any. An exception raised after a
      mutation leaves that mutation in place, as in the source. */
  datatype Step = Step(state: Processor, raised: Option<ProcessorError>)

  /** The collaborators of `process_pdfs`: the PDF reader, the text splitter, `os.path.basename`,
      and whether loading the existing index, embedding the chunks, saving the index, or writing the
      manifest fails. */
  datatype IngestEnv = IngestEnv(
    reader: string -> Option<seq<string>>,
    split: string -> seq<string>,
    basename: string -> string,
    loadFails: bool,
    embedFails: bool,
    indexSaveFails: bool,
    manifestSaveFails: bool)

  const EmptyInfo := IndexInfo([])

  /** The file names recorded in a manifest, in order. */
  function Filenames(info: IndexInfo): (names: seq<string>)
    ensures |names| == |info.processedFiles|
    ensures forall i | 0 <= i < |names| :: names[i] == info.processedFiles[i].filename
    decreases |info.processedFiles|
  {
    if info.processedFiles == [] then []
    else Filenames(IndexInfo(info.processedFiles[..|info.processedFiles| - 1]))
         + [info.processedFiles[|info.processedFiles| - 1].filename]
  }

  /** One record per path, holding its base name, in path order. */
  function Records(paths: seq<string>, basename: string -> string): (rs: seq<FileRecord>)
    ensures |rs| == |paths|
    ensures forall i | 0 <= i < |paths| :: rs[i] == FileRecord(basename(paths[i]))
  {
    if paths == [] then []
    else Records(paths[..|paths| - 1], basename) + [FileRecord(basename(paths[|paths| - 1]))]
  }

  /** `load_index_info`: the stored manifest, or exactly `{"processed_files": []}` when there is
      none. */
  function LoadIndexInfo(file: ManifestFile): (info: IndexInfo)
    ensures file.Absent? ==> info.processedFiles == []
    ensures file.Stored? ==> info == file.info
  {
    match file
    case Absent => EmptyInfo
    case Stored(stored) => stored
  }

  /** `PDFProcessor.__init__`: the manifest is read from disk; the index directory is whatever is
      on disk. */
  function Open(file: ManifestFile, indexOnDisk: Option<seq<string>>): (p: Processor)
    ensures p.info == LoadIndexInfo(file) && p.index == indexOnDisk && p.saved == file
  {
    Processor(LoadIndexInfo(file), indexOnDisk, file)
  }

  /** The existing index is loaded and extended only when its directory exists and the manifest
      lists at least one file; otherwise a fresh index is built. */
  predicate AppendsToExisting(p: Processor)
  {
    p.index.Some? && |p.info.processedFiles| > 0
  }

  /** `process_pdfs`: extract, split, embed into the existing or a fresh index, save the index, then
      append one record per path to the manifest and save it. */
  function ProcessPdfs(p: Processor, paths: seq<string>, env: IngestEnv): (r: Step)
    // A failure before the index is saved changes nothing.
    ensures r.raised.Some? && r.raised.value != ManifestSaveFailed ==> r.state == p
    // After the index is saved, the manifest gains one record per path, in path order, and
    // keeps its earlier records; nothing is de-duplicated.
    ensures r.raised.None? || r.raised == Some(ManifestSaveFailed) ==>
              && r.state.info.processedFiles == p.info.processedFiles + Records(paths, env.basename)
              && |r.state.info.processedFiles| == |p.info.processedFiles| + |paths|
              && r.state.index.Some?
    // The manifest file is written only on full success, with the new manifest.
    ensures r.raised.None? ==> r.state.saved == Stored(r.state.info)
    ensures r.raised == Some(ManifestSaveFailed) ==> r.state.saved == p.saved
    // Which failure is reported, in the order the source meets them.
    ensures PdfText.ExtractedText(paths, env.reader).Failure? ==>
              r.raised == Some(ExtractionFailed(PdfText.ExtractedText(paths, env.reader).error))
    ensures r.raised.None? <==>
              && PdfText.ExtractedText(paths, env.reader).Success?
              && !(AppendsToExisting(p) && env.loadFails)
              && !env.embedFails && !env.indexSaveFails && !env.manifestSaveFails
  {
    match PdfText.ExtractedText(paths, env.reader)
    case Failure(e) => Step(p, Some(ExtractionFailed(e)))
    case Success(rawText) =>
      var chunks := env.split(rawText);
      if AppendsToExisting(p) && env.loadFails then Step(p, Some(IndexLoadFailed))
      else if env.embedFails then Step(p, Some(EmbeddingFailed))
      else
        var store := if AppendsToExisting(p) then p.index.value + chunks else chunks;
        if env.indexSaveFails then Step(p, Some(IndexSaveFailed))
        else
          var info := IndexInfo(p.info.processedFiles + Records(paths, env.basename));
          var updated := p.(index := Some(store), info := info);
          if env.manifestSaveFails then Step(updated, Some(ManifestSaveFailed))
          else Step(updated.(saved := Stored(info)), None)
  }

  /** The chunks of the text of `paths`, when it can be extracted. */
  function ChunksOf(paths: seq<string>, env: IngestEnv): seq<string>
    requires PdfText.ExtractedText(paths, env.reader).Success?
  {
    env.split(PdfText.ExtractedText(paths, env.reader).value)
  }

  /** Create-or-append: once the index is saved, it is the existing index extended by the new
      chunks exactly when the index directory existed and the manifest was non-empty, and it is
      exactly the new chunks otherwise. */
  lemma CreateOrAppend(p: Processor, paths: seq<string>, env: IngestEnv)
    requires PdfText.ExtractedText(paths, env.reader).Success?
    requires ProcessPdfs(p, paths, env).raised.None?
    ensures AppendsToExisting(p) ==> ProcessPdfs(p, paths, env).state.index == Some(p.index.value + ChunksOf(paths, env))
    ensures !AppendsToExisting(p) ==> ProcessPdfs(p, paths, env).state.index == Some(ChunksOf(paths, env))
  {
  }

  /** Processing the same paths twice records them twice: the manifest does not de-duplicate. */
  lemma ProcessingTwiceRecordsTwice(p: Processor, paths: seq<string>, env: IngestEnv)
    requires ProcessPdfs(p, paths, env).raised.None?
    ensures var once := ProcessPdfs(p, paths, env).state;
      ProcessPdfs(once, paths, env).raised.None? ==>
        ProcessPdfs(once, paths, env).state.info.processedFiles
        == p.info.processedFiles + Records(paths, env.basename) + Records(paths, env.basename)
  {
  }

  /** `clear_index`: remove the index directory if it exists, then empty the manifest and save it. */
  function ClearIndex(p: Processor, removeFails: bool, manifestSaveFails: bool): (r: Step)
    // A failed removal happens first and leaves everything as it was.
    ensures r.raised == Some(IndexRemoveFailed) ==> r.state == p
    ensures r.raised == Some(IndexRemoveFailed) <==> p.index.Some? && removeFails
    // Otherwise the index is gone and the manifest is empty, saved or not.
    ensures r.raised != Some(IndexRemoveFailed) ==>
              r.state.index.None? && r.state.info.processedFiles == []
    ensures r.raised.None? ==> r.state.saved == Stored(EmptyInfo)
    ensures r.raised == Some(ManifestSaveFailed) ==> r.state.saved == p.saved
    ensures r.raised.None? <==> !(p.index.Some? && removeFails) && !manifestSaveFails
    // After a successful removal, a failed manifest write is the error and the file keeps its content.
    ensures !(p.index.Some? && removeFails) && manifestSaveFails ==>
              r.raised == Some(ManifestSaveFailed) && r.state.saved == p.saved
  {
    if p.index.Some? && removeFails then Step(p, Some(IndexRemoveFailed))
    else
      var cleared := p.(index := None, info := EmptyInfo);
      if manifestSaveFails then Step(cleared, Some(ManifestSaveFailed))
      else Step(cleared.(saved := Stored(EmptyInfo)), None)
  }

  /** The manifest in memory never names files while the index directory is missing. */
  predicate Consistent(p: Processor)
  {
    |p.info.processedFiles| > 0 ==> p.index.Some?
  }

  /** The manifest file on disk never names files while the index directory is missing. */
  predicate SavedConsistent(p: Processor)
  {
    |LoadIndexInfo(p.saved).processedFiles| > 0 ==> p.index.Some?
  }

  /** Every operation keeps the in-memory manifest consistent with the index, whatever it raises. */
  lemma OperationsKeepConsistent(p: Processor, paths: seq<string>, env: IngestEnv, removeFails: bool, manifestSaveFails: bool)
    requires Consistent(p)
    ensures Consistent(ProcessPdfs(p, paths, env).state)
    ensures Consistent(ClearIndex(p, removeFails, manifestSaveFails).state)
  {
  }

  /** The manifest file stays consistent with the index through processing, whatever processing
      raises, and through a clear whose manifest write succeeds. */
  lemma SavedManifestConsistency(p: Processor, paths: seq<string>, env: IngestEnv, removeFails: bool)
    requires SavedConsistent(p)
    ensures SavedConsistent(ProcessPdfs(p, paths, env).state)
    ensures SavedConsistent(ClearIndex(p, removeFails, false).state)
  {
  }

  /** A clear that removes the index and then fails to write the manifest leaves the old manifest
      file naming every file it named, with no index behind it. */
  lemma FailedClearLeavesStaleManifest(p: Processor, removeFails: bool)
    requires !(p.index.Some? && removeFails)
    ensures var r := ClearIndex(p, removeFails, true);
      && r.raised == Some(ManifestSaveFailed)
      && r.state.index.None? && r.state.saved == p.saved
      && (SavedConsistent(r.state) <==> |LoadIndexInfo(p.saved).processedFiles| == 0)
  {
  }

  /** Right after opening, the manifest in memory is the one on disk, so the two consistency
      conditions agree. */
  lemma OpenReadsSavedManifest(file: ManifestFile, indexOnDisk: Option<seq<string>>)
    ensures Consistent(Open(file, indexOnDisk)) <==> SavedConsistent(Open(file, indexOnDisk))
  {
  }

  /** After a successful clear, the next successful ingest builds a fresh index from exactly the new
      chunks and the manifest lists exactly the new files. */
  lemma ClearThenProcess(p: Processor, removeFails: bool, paths: seq<string>, env: IngestEnv)
    requires ClearIndex(p, removeFails, false).raised.None?
    ensures var cleared := ClearIndex(p, removeFails, false).state;
      ProcessPdfs(cleared, paths, env).raised.None? ==>
        && ProcessPdfs(cleared, paths, env).state.index == Some(ChunksOf(paths, env))
        && ProcessPdfs(cleared, paths, env).state.info.processedFiles == Records(paths, env.basename)
  {
    var cleared := ClearIndex(p, removeFails, false).state;
    assert !AppendsToExisting(cleared);
    assert [] + Records(paths, env.basename) == Records(paths, env.basename);
  }
}

=== FILE: pdf_text.dfy ===
/** Text extraction over a set of PDF files (`get_pdf_text`). Opening and parsing a file is an
    oracle: `reader(path)` is the file's page texts in page order, or None when opening or parsing
    the file raises. */
module PdfText {
  import opened Wrappers
  import opened Strings

  /** The exception that aborts extraction: the first file that could not be read. */
  datatype ExtractError = Unreadable(path: string)

  /** Reference definition: the text of every page of every file, files in the given order and
      pages in page order, or the first unreadable file. */
  function ExtractedText(paths: seq<string>, reader: string -> Option<seq<string>>): Result<string, ExtractError>
  {
    if paths == [] then Success("")
    else
      match ExtractedText(paths[..|paths| - 1], reader)
      case Failure(e) => Failure(e)
      case Success(text) =>
        match reader(paths[|paths| - 1])
        case None => Failure(Unreadable(paths[|paths| - 1]))
        case Some(pages) => Success(text + Join(pages))
  }

  /** Extraction succeeds exactly when every file can be read; otherwise it reports the first file
      (in the given order) that cannot. */
  lemma {:induction false} ExtractedTextOutcome(paths: seq<string>, reader: string -> Option<seq<string>>)
    ensures ExtractedText(paths, reader).Success? <==> forall i | 0 <= i < |paths| :: reader(paths[i]).Some?
    ensures ExtractedText(paths, reader).Failure? ==>
              exists i | 0 <= i < |paths| ::
                && ExtractedText(paths, reader).error == Unreadable(paths[i])
                && reader(paths[i]).None?
                && forall k | 0 <= k < i :: reader(paths[k]).Some?
    decreases |paths|
  {
    if paths != [] {
      var init := paths[..|paths| - 1];
      ExtractedTextOutcome(init, reader);
      assert forall k | 0 <= k < |init| :: init[k] == paths[k];
    }
  }

  /** Files contribute their text in the order they are given: extracting from `a + b` is
      extracting from `a` followed by extracting from `b`. */
  lemma {:induction false} ExtractedTextAppend(a: seq<string>, b: seq<string>, reader: string -> Option<seq<string>>)
    requires ExtractedText(a, reader).Success? && ExtractedText(b, reader).Success?
    ensures ExtractedText(a + b, reader) == Success(ExtractedText(a, reader).value + ExtractedText(b, reader).value)
    decreases |b|
  {
    if b == [] {
      assert a + b == a;
      assert ExtractedText(a, reader).value + "" == ExtractedText(a, reader).value;
    } else {
      var b' := b[..|b| - 1];
      assert (a + b)[..|a + b| - 1] == a + b';
      assert (a + b)[|a + b| - 1] == b[|b| - 1];
      assert ExtractedText(b', reader).Success?;
      ExtractedTextAppend(a, b', reader);
      var pages := reader(b[|b| - 1]).value;
      calc {
        ExtractedText(a + b, reader).value;
        ExtractedText(a + b', reader).value + Join(pages);
        ExtractedText(a, reader).value + ExtractedText(b', reader).value + Join(pages);
        ExtractedText(a, reader).value + ExtractedText(b, reader).value;
      }
    }
  }

  /** One file's text is the concatenation of its pages, each included exactly as extracted. */
  lemma SingleFileText(path: string, pages: seq<string>, reader: string -> Option<seq<string>>)
    requires reader(path) == Some(pages)
    ensures ExtractedText([path], reader) == Success(Join(pages))
  {
    assert [path][..0] == [];
    assert "" + Join(pages) == Join(pages);
  }

  /** `get_pdf_text`: an empty accumulator extended page by page, file by file. */
  method GetPdfText(paths: seq<string>, reader: string -> Option<seq<string>>) returns (r: Result<string, ExtractError>)
    ensures r == ExtractedText(paths, reader)
  {
    var text := "";
    var i := 0;
    while i < |paths|
      invariant 0 <= i <= |paths|
      invariant ExtractedText(paths[..i], reader) == Success(text)
    {
      assert paths[..i + 1][..i] == paths[..i];
      match reader(paths[i])
      case None =>
        assert paths[..i + 1] == paths[..i] + [paths[i]];
        ExtractPrefixFails(paths, i + 1, reader);
        return Failure(Unreadable(paths[i]));
      case Some(pages) =>
        var base := text;
        var j := 0;
        while j < |pages|
          invariant 0 <= j <= |pages|
          invariant text == base + Join(pages[..j])
        {
          assert pages[..j + 1][..j] == pages[..j];
          text := text + pages[j];
          j := j + 1;
        }
        assert pages[..j] == pages;
        i := i + 1;
    }
    assert paths[..i] == paths;
    r := Success(text);
  }

  /** Once a prefix of the files fails, extraction over all files fails with the same error. */
  lemma {:induction false} ExtractPrefixFails(paths: seq<string>, n: nat, reader: string -> Option<seq<string>>)
    requires n <= |paths|
    requires ExtractedText(paths[..n], reader).Failure?
    ensures ExtractedText(paths, reader) == ExtractedText(paths[..n], reader)
    decreases |paths| - n
  {
    if n < |paths| {
      assert paths[..n + 1][..n] == paths[..n];
      ExtractPrefixFails(paths, n + 1, reader);
    } else {
      assert paths[..n] == paths;
    }
  }
}

=== FILE: prompt_template.dfy ===
/** The answer prompt of `get_conversational_chain` and the format-string semantics that the
    prompt-template library applies to it (Python `str.format` restricted to plain named fields:
    `{name}` is substituted, `{{` and `}}` stand for literal braces, anything else raises). */
module PromptTemplate {
  import opened Wrappers
  import Strings

  /** What formatting raises: an unterminated `{`, a lone `}`, a `{` inside a field, or a field
      with no value. */
  datatype FormatError = UnclosedField | SingleRightBrace | BraceInFieldName | MissingKey(name: string)

  predicate NoBraces(s: string)
  {
    '{' !in s && '}' !in s
  }

  /** Index of the first `}` in `t` at or after `i`, or `|t|` when there is none. */
  function FieldEnd(t: string, i: nat): (k: nat)
    requires i <= |t|
    ensures i <= k <= |t|
    ensures forall m | i <= m < k :: t[m] != '}'
    ensures k < |t| ==> t[k] == '}'
    decreases |t| - i
  {
    if i == |t| || t[i] == '}' then i else FieldEnd(t, i + 1)
  }

  /** Puts `p` in front of a successful result; passes an error through. */
  function Prepend(p: string, r: Result<string, FormatError>): Result<string, FormatError>
  {
    match r
    case Success(v) => Success(p + v)
    case Failure(e) => Failure(e)
  }

  /** Fills the template text `t` with the named values `vars`, scanning left to right as
      `str.format` does: the first malformed brace or unbound field met ends it. */
  function Render(t: string, vars: map<string, string>): (r: Result<string, FormatError>)
    // Text without braces is its own formatting.
    ensures NoBraces(t) ==> r == Success(t)
    decreases |t|
  {
    if t == [] then Success("")
    else if t[0] == '{' then
      if |t| > 1 && t[1] == '{' then Prepend("{", Render(t[2..], vars))
      else
        var k := FieldEnd(t, 1);
        if k == |t| then Failure(UnclosedField)
        else if '{' in t[1..k] then Failure(BraceInFieldName)
        else if t[1..k] in vars then Prepend(vars[t[1..k]], Render(t[k + 1..], vars))
        else Failure(MissingKey(t[1..k]))
    else if t[0] == '}' then
      if |t| > 1 && t[1] == '}' then Prepend("}", Render(t[2..], vars))
      else Failure(SingleRightBrace)
    else
      assert NoBraces(t) ==> NoBraces(t[1..]) && [t[0]] + t[1..] == t;
      Prepend([t[0]], Render(t[1..], vars))
  }

  /** The first malformed brace of `t` as Python's format-string parser finds it, reading left to
      right: an unterminated `{`, a lone `}`, or a `{` inside a field. `None` when every brace is doubled or closes a
      field. No value is looked at. */
  function Parse(t: string): (r: Option<FormatError>)
    ensures r.Some? ==> !r.value.MissingKey?
    ensures NoBraces(t) ==> r == None
    decreases |t|
  {
    if t == [] then None
    else if t[0] == '{' then
      if |t| > 1 && t[1] == '{' then Parse(t[2..])
      else
        var k := FieldEnd(t, 1);
        if k == |t| then Some(UnclosedField)
        else if '{' in t[1..k] then Some(BraceInFieldName)
        else Parse(t[k + 1..])
    else if t[0] == '}' then
      if |t| > 1 && t[1] == '}' then Parse(t[2..]) else Some(SingleRightBrace)
    else
      assert NoBraces(t) ==> NoBraces(t[1..]) && [t[0]] + t[1..] == t;
      Parse(t[1..])
  }

  /** Filling in meets the same malformed braces as parsing, unless an unbound field stops it
      first. */
  lemma {:induction false} RenderSeesParseErrors(t: string, vars: map<string, string>)
    ensures Render(t, vars).Success? ==> Parse(t) == None
    ensures Render(t, vars).Failure? && !Render(t, vars).error.MissingKey?
      ==> Parse(t) == Some(Render(t, vars).error)
    ensures Parse(t) == None && Render(t, vars).Failure? ==> Render(t, vars).error.MissingKey?
    decreases |t|
  {
    if t == [] {
    } else if t[0] == '{' {
      if |t| > 1 && t[1] == '{' {
        RenderSeesParseErrors(t[2..], vars);
      } else {
        var k := FieldEnd(t, 1);
        if k < |t| { RenderSeesParseErrors(t[k + 1..], vars); }
      }
    } else if t[0] == '}' {
      if |t| > 1 && t[1] == '}' { RenderSeesParseErrors(t[2..], vars); }
    } else {
      RenderSeesParseErrors(t[1..], vars);
    }
  }

  /** Formats `t` as the prompt-template library does. Building the template parses all of it,
      so a malformed brace anywhere is reported before any value is looked up; filling it in then
      fails on the first field without a value. Parsing first decides which error is reported,
      never whether formatting succeeds or what it yields. */
  function Format(t: string, vars: map<string, string>): (r: Result<string, FormatError>)
    ensures r.Success? <==> Render(t, vars).Success?
    ensures r.Success? ==> r == Render(t, vars)
    ensures Parse(t).Some? ==> r == Failure(Parse(t).value)
    ensures Parse(t) == None && r.Failure? ==> r.error.MissingKey?
    ensures r.Failure? && r.error.MissingKey? ==> r == Render(t, vars)
    ensures NoBraces(t) ==> r == Success(t)
  {
    RenderSeesParseErrors(t, vars);
    if Parse(t).Some? then Failure(Parse(t).value) else Render(t, vars)
  }

  /** A lone `}` after an unbound field: filling in alone would stop at the field, but parsing
      the whole template first reports the brace. */
  lemma ParseErrorComesFirst()
    ensures Render("{x} }", map[]) == Failure(MissingKey("x"))
    ensures Format("{x} }", map[]) == Failure(SingleRightBrace)
  {
    var t := "{x} }";
    assert FieldEnd(t, 1) == 2 by { assert FieldEnd(t, 2) == 2; }
    assert t[1..2] == "x" && t[3..] == " }" && " }"[1..] == "}";
  }

  /** A `{` inside a field is rejected when the template is built, even if a value under that
      name is supplied. */
  lemma BraceInFieldNameRejected()
    ensures Parse("{a{b}") == Some(BraceInFieldName)
    ensures Format("{a{b}", map["a{b" := ""]) == Failure(BraceInFieldName)
  {
    var t := "{a{b}";
    assert FieldEnd(t, 1) == 4 by { assert FieldEnd(t, 4) == 4; }
    assert t[1..4][1] == '{';
  }

  /** Doubles every brace, so that formatting gives the text back unchanged. */
  function Escape(s: string): (r: string)
    ensures |r| >= |s|
  {
    if s == [] then "" else EscapeChar(s[0]) + Escape(s[1..])
  }

  function EscapeChar(c: char): (r: string)
    ensures |r| >= 1
  {
    if c == '{' then "{{" else if c == '}' then "}}" else [c]
  }

  /** One escaped character formats to the character itself. */
  lemma RenderEscapedChar(c: char, rest: string, vars: map<string, string>)
    ensures Render(EscapeChar(c) + rest, vars) == Prepend([c], Render(rest, vars))
  {
    var t := EscapeChar(c) + rest;
    if c == '{' {
      assert t[0] == '{' && t[1] == '{' && t[2..] == rest;
    } else if c == '}' {
      assert t[0] == '}' && t[1] == '}' && t[2..] == rest;
    } else {
      assert t[0] == c && t[1..] == rest;
    }
  }

  /** A template as a sequence of pieces: literal text, named fields, and text spliced into the
      format string as it is (what an f-string interpolation does). */
  datatype Template =
    | End
    | Lit(text: string, next: Template)
    | Field(name: string, next: Template)
    | Raw(text: string, next: Template)

  /** Every field of `t` is a brace-free name that `vars` provides, and no spliced text carries a
      brace. */
  predicate FieldsBound(t: Template, vars: map<string, string>)
  {
    match t
    case End => true
    case Lit(_, next) => FieldsBound(next, vars)
    case Field(name, next) => NoBraces(name) && name in vars && FieldsBound(next, vars)
    case Raw(s, next) => NoBraces(s) && FieldsBound(next, vars)
  }

  /** The format string that spells `t`: literals escaped, fields written `{name}`, spliced text
      unchanged. */
  function Source(t: Template): string
  {
    match t
    case End => ""
    case Lit(s, next) => Escape(s) + Source(next)
    case Field(name, next) => "{" + name + "}" + Source(next)
    case Raw(s, next) => s + Source(next)
  }

  /** The text `t` stands for once every field is replaced by its value. */
  function Expand(t: Template, vars: map<string, string>): string
    requires FieldsBound(t, vars)
  {
    match t
    case End => ""
    case Lit(s, next) => s + Expand(next, vars)
    case Field(name, next) => vars[name] + Expand(next, vars)
    case Raw(s, next) => s + Expand(next, vars)
  }

  lemma PrependPrepend(a: string, b: string, r: Result<string, FormatError>)
    ensures Prepend(a, Prepend(b, r)) == Prepend(a + b, r)
  {
    if r.Success? {
      assert a + (b + r.value) == (a + b) + r.value;
    }
  }

  /** Formatting an escaped text yields the text itself, whatever follows it. */
  lemma {:induction false} RenderEscaped(s: string, rest: string, vars: map<string, string>)
    ensures Render(Escape(s) + rest, vars) == Prepend(s, Render(rest, vars))
    decreases |s|
  {
    var r := Render(rest, vars);
    if s == [] {
      assert Escape(s) + rest == rest;
      if r.Success? { assert s + r.value == r.value; }
    } else {
      var c, tail := s[0], s[1..];
      var e := Escape(tail) + rest;
      RenderEscaped(tail, rest, vars);
      Strings.AppendAssoc(EscapeChar(c), Escape(tail), rest);
      RenderEscapedChar(c, e, vars);
      PrependPrepend([c], tail, r);
      assert [c] + tail == s;
    }
  }

  lemma {:induction false} EscapeNoBraces(s: string)
    requires NoBraces(s)
    ensures Escape(s) == s
    decreases |s|
  {
    if s != [] {
      EscapeNoBraces(s[1..]);
      assert [s[0]] + s[1..] == s;
    }
  }

  /** Formatting `{name}` substitutes the value of `name`, or raises when there is none. */
  lemma RenderField(name: string, rest: string, vars: map<string, string>)
    requires NoBraces(name)
    ensures Render("{" + name + "}" + rest, vars)
         == if name in vars then Prepend(vars[name], Render(rest, vars)) else Failure(MissingKey(name))
  {
    var t := "{" + name + "}" + rest;
    var k := 1 + |name|;
    assert t[k] == '}';
    assert forall m | 1 <= m < k :: t[m] == name[m - 1];
    assert FieldEnd(t, 1) == k;
    assert t[1..k] == name;
    assert t[k + 1..] == rest;
  }

  /** Formatting the source of a template expands it, whatever follows it. */
  lemma {:induction false} RenderSource(t: Template, rest: string, vars: map<string, string>)
    requires FieldsBound(t, vars)
    ensures Render(Source(t) + rest, vars) == Prepend(Expand(t, vars), Render(rest, vars))
  {
    match t
    case End =>
      assert Source(t) + rest == rest;
      var r := Render(rest, vars);
      if r.Success? { assert "" + r.value == r.value; }
    case Lit(s, next) =>
      RenderSource(next, rest, vars);
      Strings.AppendAssoc(Escape(s), Source(next), rest);
      EscapedStep(s, Source(next) + rest, Expand(next, vars), Render(rest, vars), vars);
    case Field(name, next) =>
      RenderSource(next, rest, vars);
      Strings.AppendAssoc("{" + name + "}", Source(next), rest);
      FieldStep(name, Source(next) + rest, Expand(next, vars), Render(rest, vars), vars);
    case Raw(s, next) =>
      RenderSource(next, rest, vars);
      EscapeNoBraces(s);
      Strings.AppendAssoc(s, Source(next), rest);
      EscapedStep(s, Source(next) + rest, Expand(next, vars), Render(rest, vars), vars);
  }

  /** Escaped text in front of a formatted remainder contributes itself. */
  lemma EscapedStep(s: string, inner: string, e: string, r: Result<string, FormatError>, vars: map<string, string>)
    requires Render(inner, vars) == Prepend(e, r)
    ensures Render(Escape(s) + inner, vars) == Prepend(s + e, r)
  {
    RenderEscaped(s, inner, vars);
    PrependPrepend(s, e, r);
  }

  /** A bound field in front of a formatted remainder contributes its value. */
  lemma FieldStep(name: string, inner: string, e: string, r: Result<string, FormatError>, vars: map<string, string>)
    requires NoBraces(name) && name in vars
    requires Render(inner, vars) == Prepend(e, r)
    ensures Render("{" + name + "}" + inner, vars) == Prepend(vars[name] + e, r)
  {
    RenderField(name, inner, vars);
    PrependPrepend(vars[name], e, r);
  }

  /** A template whose fields are all bound formats to its expansion. */
  lemma FormatTemplate(t: Template, vars: map<string, string>)
    requires FieldsBound(t, vars)
    ensures Format(Source(t), vars) == Success(Expand(t, vars))
  {
    RenderSource(t, "", vars);
    assert Source(t) + "" == Source(t);
    assert Expand(t, vars) + "" == Expand(t, vars);
  }

  /** The fixed wording of the answer prompt: the literal text around the document context, the
      conversation context, the question, its language and the output language. */
  datatype Wording = Wording(
    contextHeading: string,
    contextTrailer: string,
    questionHeading: string,
    questionTag: string,
    instructions: string,
    closing: string)

  /** The wording of `get_conversational_chain` (src/utils.py:48-61), indentation included. */
  const AnswerWording := Wording(
    "\n    Context from documents:\n ",
    "\n\n    ",
    "\n\n    Question (in ",
    "):\n ",
    "\n\n    Please understand both the document context and the previous conversation history.\n"
    + "    Provide your answer in ",
    ", taking into account both the document content\n"
    + "    and any relevant information from the previous conversation.\n"
    + "    If there are any references to previous questions or answers, make sure to maintain consistency.\n"
    + "\n    Answer:\n    ")

  /** The part of the template after the conversation context. */
  function After(w: Wording): Template
  {
    Lit(w.questionHeading, Field("question_language", Lit(w.questionTag, Field("question",
      Lit(w.instructions, Field("output_language", Lit(w.closing, End)))))))
  }

  /** The template as the source builds it: the conversation context is interpolated into the
      f-string unescaped, so its braces become part of the format syntax. */
  function AsWrittenTemplate(w: Wording, conversation: string): Template
  {
    Lit(w.contextHeading, Field("context", Lit(w.contextTrailer, Raw(conversation, After(w)))))
  }

  /** The template with the conversation context as literal text, so that it reaches the prompt
      verbatim whatever it contains. */
  function CorrectedTemplate(w: Wording, conversation: string): Template
  {
    Lit(w.contextHeading, Field("context", Lit(w.contextTrailer, Lit(conversation, After(w)))))
  }

  /** The values the chain supplies when it is invoked: the formatted retrieved documents, the
      question, its detected language and the output language. */
  function PromptVars(docs: string, question: string, questionLanguage: string, outputLanguage: string): map<string, string>
  {
    map["context" := docs, "question" := question,
        "question_language" := questionLanguage, "output_language" := outputLanguage]
  }

  /** The prompt the model is meant to receive: document context, the conversation context
      verbatim, the question tagged with its language, and the instruction naming the output
      language, in that order. */
  function PromptText(w: Wording, docs: string, conversation: string, question: string, questionLanguage: string, outputLanguage: string): string
  {
    w.contextHeading + (docs + (w.contextTrailer + (conversation + (w.questionHeading + (questionLanguage
    + (w.questionTag + (question + (w.instructions + (outputLanguage + w.closing)))))))))
  }

  /** The corrected template always formats, and it formats to the intended prompt, whatever the
      documents, conversation, question and languages are. */
  lemma CorrectedTemplateRenders(w: Wording, docs: string, conversation: string, question: string, questionLanguage: string, outputLanguage: string)
    ensures Format(Source(CorrectedTemplate(w, conversation)), PromptVars(docs, question, questionLanguage, outputLanguage))
         == Success(PromptText(w, docs, conversation, question, questionLanguage, outputLanguage))
  {
    var vars := PromptVars(docs, question, questionLanguage, outputLanguage);
    var t := CorrectedTemplate(w, conversation);
    assert FieldsBound(t, vars) && Expand(t, vars) == PromptText(w, docs, conversation, question, questionLanguage, outputLanguage) by {
      CorrectedExpands(w, docs, conversation, question, questionLanguage, outputLanguage);
    }
    FormatTemplate(t, vars);
  }

  lemma CorrectedExpands(w: Wording, docs: string, conversation: string, question: string, questionLanguage: string, outputLanguage: string)
    ensures var vars := PromptVars(docs, question, questionLanguage, outputLanguage);
      && FieldsBound(CorrectedTemplate(w, conversation), vars)
      && Expand(CorrectedTemplate(w, conversation), vars) == PromptText(w, docs, conversation, question, questionLanguage, outputLanguage)
  {
    var vars := PromptVars(docs, question, questionLanguage, outputLanguage);
    AfterExpands(w, vars);
    var c3 := Lit(conversation, After(w));
    var c2 := Lit(w.contextTrailer, c3);
    var c1 := Field("context", c2);
    assert FieldsBound(c3, vars) && Expand(c3, vars) == conversation + Expand(After(w), vars);
    assert FieldsBound(c2, vars) && Expand(c2, vars) == w.contextTrailer + Expand(c3, vars);
    assert FieldsBound(c1, vars) && Expand(c1, vars) == docs + Expand(c2, vars);
    assert Expand(CorrectedTemplate(w, conversation), vars) == w.contextHeading + Expand(c1, vars);
  }

  /** The part after the conversation context needs the question, its language and the output
      language, and expands to them with the wording in between. */
  lemma AfterExpands(w: Wording, vars: map<string, string>)
    requires "question" in vars && "question_language" in vars && "output_language" in vars
    ensures FieldsBound(After(w), vars)
    ensures Expand(After(w), vars) == w.questionHeading + (vars["question_language"] + (w.questionTag
      + (vars["question"] + (w.instructions + (vars["output_language"] + w.closing)))))
  {
    var t5 := Lit(w.instructions, Field("output_language", Lit(w.closing, End)));
    var t4 := Field("question", t5);
    var t3 := Lit(w.questionTag, t4);
    var t2 := Field("question_language", t3);
    InstructionsExpand(w, vars);
    assert FieldsBound(t4, vars);
    assert Expand(t4, vars) == vars["question"] + Expand(t5, vars);
    assert FieldsBound(t3, vars);
    assert Expand(t3, vars) == w.questionTag + Expand(t4, vars);
    assert FieldsBound(t2, vars);
    assert Expand(t2, vars) == vars["question_language"] + Expand(t3, vars);
  }

  /** The closing instructions need the output language and expand to it in its wording. */
  lemma InstructionsExpand(w: Wording, vars: map<string, string>)
    requires "output_language" in vars
    ensures FieldsBound(Lit(w.instructions, Field("output_language", Lit(w.closing, End))), vars)
    ensures Expand(Lit(w.instructions, Field("output_language", Lit(w.closing, End))), vars)
      == w.instructions + (vars["output_language"] + w.closing)
  {
    var t7 := Lit(w.closing, End);
    var t6 := Field("output_language", t7);
    assert Expand(t7, vars) == w.closing + Expand(End, vars);
    assert w.closing + "" == w.closing;
    assert FieldsBound(t7, vars);
    assert FieldsBound(t6, vars);
    assert Expand(t6, vars) == vars["output_language"] + Expand(t7, vars);
  }

  /** Without braces in the conversation context the source's template is the corrected one. */
  lemma AsWrittenAgreesWithoutBraces(w: Wording, conversation: string)
    requires NoBraces(conversation)
    ensures Source(AsWrittenTemplate(w, conversation)) == Source(CorrectedTemplate(w, conversation))
  {
    var after := Source(After(w));
    EscapeNoBraces(conversation);
    assert Source(Raw(conversation, After(w))) == conversation + after;
    assert Source(Lit(conversation, After(w))) == Escape(conversation) + after;
    assert Source(Lit(w.contextTrailer, Raw(conversation, After(w))))
        == Source(Lit(w.contextTrailer, Lit(conversation, After(w))));
    assert Source(Field("context", Lit(w.contextTrailer, Raw(conversation, After(w)))))
        == Source(Field("context", Lit(w.contextTrailer, Lit(conversation, After(w)))));
  }

  /** Without braces in the conversation context, the template the source builds formats to the
      intended prompt. */
  lemma AsWrittenRendersWithoutBraces(w: Wording, docs: string, conversation: string, question: string, questionLanguage: string, outputLanguage: string)
    ensures NoBraces(conversation) ==>
      Format(Source(AsWrittenTemplate(w, conversation)), PromptVars(docs, question, questionLanguage, outputLanguage))
      == Success(PromptText(w, docs, conversation, question, questionLanguage, outputLanguage))
  {
    if NoBraces(conversation) {
      AsWrittenAgreesWithoutBraces(w, conversation);
      CorrectedTemplateRenders(w, docs, conversation, question, questionLanguage, outputLanguage);
    }
  }

  /** A conversation context holding `{name}` for a name the chain does not supply makes the
      source's template fail to format, so the model is never called. The error names the field
      unless the text after it carries a malformed brace, which parsing reports first. */
  lemma AsWrittenFailsOnForeignField(w: Wording, docs: string, conversation: string, question: string, questionLanguage: string, outputLanguage: string, pre: string, name: string, post: string)
    requires conversation == pre + "{" + name + "}" + post
    requires NoBraces(pre) && NoBraces(name)
    requires name !in PromptVars(docs, question, questionLanguage, outputLanguage)
    ensures Format(Source(AsWrittenTemplate(w, conversation)), PromptVars(docs, question, questionLanguage, outputLanguage)).Failure?
    ensures NoBraces(post) ==>
      Format(Source(AsWrittenTemplate(w, conversation)), PromptVars(docs, question, questionLanguage, outputLanguage))
      == Failure(MissingKey(name))
  {
    AsWrittenRenderFails(w, conversation, pre, name, post, PromptVars(docs, question, questionLanguage, outputLanguage));
    if NoBraces(post) {
      ForeignFieldParses(w, conversation, pre, name, post);
    }
  }

  /** Filling in the source's template stops at the unsupplied field. */
  lemma AsWrittenRenderFails(w: Wording, conversation: string, pre: string, name: string, post: string, vars: map<string, string>)
    requires conversation == pre + "{" + name + "}" + post
    requires NoBraces(pre) && NoBraces(name)
    requires "context" in vars && name !in vars
    ensures Render(Source(AsWrittenTemplate(w, conversation)), vars) == Failure(MissingKey(name))
  {
    var after := Source(After(w));
    assert Render(conversation + after, vars) == Failure(MissingKey(name)) by {
      FieldFailsAfterPlainText(pre, name, post + after, vars);
      FieldSplit(pre, name, post, after);
    }
    AsWrittenSource(w, conversation);
    FailurePassesThroughPrefix(w, conversation + after, vars);
  }

  /** The source's template with one extra well-formed field in the conversation context still
      parses: binding that field too would make it format. */
  lemma ForeignFieldParses(w: Wording, conversation: string, pre: string, name: string, post: string)
    requires conversation == pre + "{" + name + "}" + post
    requires NoBraces(pre) && NoBraces(name) && NoBraces(post)
    ensures Parse(Source(AsWrittenTemplate(w, conversation))) == None
  {
    var vars := PromptVars("", "", "", "")[name := ""];
    var t := ForeignFieldTemplate(w, pre, name, post);
    ForeignFieldTemplateBound(w, pre, name, post, vars);
    ForeignFieldTemplateSource(w, conversation, pre, name, post);
    FormatTemplate(t, vars);
  }

  /** The source's template with the conversation context split around a field. */
  function ForeignFieldTemplate(w: Wording, pre: string, name: string, post: string): Template
  {
    Lit(w.contextHeading, Field("context", Lit(w.contextTrailer, Raw(pre, Field(name, Raw(post, After(w)))))))
  }

  lemma ForeignFieldTemplateBound(w: Wording, pre: string, name: string, post: string, vars: map<string, string>)
    requires NoBraces(pre) && NoBraces(name) && NoBraces(post)
    requires name in vars && "context" in vars
    requires "question" in vars && "question_language" in vars && "output_language" in vars
    ensures FieldsBound(ForeignFieldTemplate(w, pre, name, post), vars)
  {
    AfterExpands(w, vars);
    var t4 := Raw(post, After(w));
    var t3 := Field(name, t4);
    var t2 := Raw(pre, t3);
    assert FieldsBound(t4, vars);
    assert FieldsBound(t3, vars);
    assert FieldsBound(t2, vars);
    assert FieldsBound(Lit(w.contextTrailer, t2), vars);
  }

  lemma ForeignFieldTemplateSource(w: Wording, conversation: string, pre: string, name: string, post: string)
    requires conversation == pre + "{" + name + "}" + post
    ensures Source(ForeignFieldTemplate(w, pre, name, post)) == Source(AsWrittenTemplate(w, conversation))
  {
    var a := Source(After(w));
    var t4 := Raw(post, After(w));
    var t3 := Field(name, t4);
    var t2 := Raw(pre, t3);
    assert Source(t3) == "{" + name + "}" + (post + a);
    assert Source(t2) == pre + ("{" + name + "}" + (post + a));
    FieldSplit(pre, name, post, a);
    var c := Raw(conversation, After(w));
    assert Source(t2) == Source(c);
    assert Source(Lit(w.contextTrailer, t2)) == Source(Lit(w.contextTrailer, c));
    assert Source(Field("context", Lit(w.contextTrailer, t2))) == Source(Field("context", Lit(w.contextTrailer, c)));
  }

  /** Text around a field, regrouped so that the field heads what follows it. */
  lemma FieldSplit(pre: string, name: string, post: string, after: string)
    ensures (pre + "{" + name + "}" + post) + after == pre + ("{" + name + "}" + (post + after))
  {
    var f := "{" + name + "}";
    Strings.AppendAssoc(pre, "{", name);
    Strings.AppendAssoc(pre, "{" + name, "}");
    Strings.AppendAssoc(pre + f, post, after);
    Strings.AppendAssoc(pre, f, post + after);
  }

  /** An unsupplied field after brace-free text makes formatting fail with its name. */
  lemma FieldFailsAfterPlainText(pre: string, name: string, rest: string, vars: map<string, string>)
    requires NoBraces(pre) && NoBraces(name) && name !in vars
    ensures Render(pre + ("{" + name + "}" + rest), vars) == Failure(MissingKey(name))
  {
    RenderField(name, rest, vars);
    EscapeNoBraces(pre);
    RenderEscaped(pre, "{" + name + "}" + rest, vars);
  }

  /** The wording before the conversation context cannot mask a failure inside it. */
  lemma FailurePassesThroughPrefix(w: Wording, t3: string, vars: map<string, string>)
    requires "context" in vars && Render(t3, vars).Failure?
    ensures Render(Escape(w.contextHeading) + ("{" + "context" + "}" + (Escape(w.contextTrailer) + t3)), vars) == Render(t3, vars)
  {
    var t2 := Escape(w.contextTrailer) + t3;
    RenderEscaped(w.contextTrailer, t3, vars);
    RenderField("context", t2, vars);
    RenderEscaped(w.contextHeading, "{" + "context" + "}" + t2, vars);
  }

  lemma AsWrittenSource(w: Wording, conversation: string)
    ensures Source(AsWrittenTemplate(w, conversation))
         == Escape(w.contextHeading) + ("{" + "context" + "}" + (Escape(w.contextTrailer) + (conversation + Source(After(w)))))
  {
    var after := Source(After(w));
    var t3 := conversation + after;
    var t2 := Escape(w.contextTrailer) + t3;
    assert Source(Raw(conversation, After(w))) == t3;
    assert Source(Lit(w.contextTrailer, Raw(conversation, After(w)))) == t2;
    assert Source(Field("context", Lit(w.contextTrailer, Raw(conversation, After(w))))) == "{" + "context" + "}" + t2;
  }
}

=== FILE: strings.dfy ===
/** The few Python `str` operations the session layer relies on, with Python's semantics. */
module Strings {

  /** Concatenation of a sequence of strings, front to back (`"".join(parts)`). */
  function Join(parts: seq<string>): string
  {
    if parts == [] then "" else Join(parts[..|parts| - 1]) + parts[|parts| - 1]
  }

  lemma {:induction false} JoinAppend(a: seq<string>, b: seq<string>)
    ensures Join(a + b) == Join(a) + Join(b)
    decreases |b|
  {
    if b == [] {
      assert a + b == a;
    } else {
      var b', last := b[..|b| - 1], b[|b| - 1];
      assert (a + b)[..|a + b| - 1] == a + b' && (a + b)[|a + b| - 1] == last;
      assert Join(a + b) == Join(a + b') + last;
      JoinAppend(a, b');
      assert Join(b) == Join(b') + last;
    }
  }

  lemma AppendAssoc(a: string, b: string, c: string)
    ensures a + (b + c) == a + b + c
  {
  }

  /** Python's `str.isspace` for one character: bidirectional classes WS, B, S and category Zs. */
  predicate IsSpace(c: char)
  {
    var n := c as int;
    || 9 <= n <= 13 || 28 <= n <= 32 || n == 0x85 || n == 0xA0 || n == 0x1680
    || 0x2000 <= n <= 0x200A || n == 0x2028 || n == 0x2029 || n == 0x202F
    || n == 0x205F || n == 0x3000
  }

  /** Number of leading whitespace characters of `s`. */
  function LeadingSpaces(s: string): (n: nat)
    ensures n <= |s|
    ensures forall k | 0 <= k < n :: IsSpace(s[k])
    ensures n == |s| || !IsSpace(s[n])
  {
    if s == [] || !IsSpace(s[0]) then 0 else 1 + LeadingSpaces(s[1..])
  }

  /** Index at which the trailing whitespace of `s[lo..]` starts. */
  function TrailingStart(s: string, lo: nat): (m: nat)
    requires lo <= |s|
    ensures lo <= m <= |s|
    ensures forall k | m <= k < |s| :: IsSpace(s[k])
    ensures m == lo || !IsSpace(s[m - 1])
    decreases |s| - lo
  {
    if |s| == lo || !IsSpace(s[|s| - 1]) then |s| else TrailingStart(s[..|s| - 1], lo)
  }

  /** Python's `str.strip()` with no argument. The result is the slice of `s` left after removing
      whitespace at both ends: it neither starts nor ends with whitespace, and it is empty exactly
      when `s` is all whitespace. */
  function Strip(s: string): (r: string)
    ensures |r| <= |s|
    ensures r != [] ==> !IsSpace(r[0]) && !IsSpace(r[|r| - 1])
    ensures r == [] <==> forall k | 0 <= k < |s| :: IsSpace(s[k])
    ensures var i := LeadingSpaces(s);
              && i + |r| <= |s|
              && r == s[i..i + |r|]
              && (forall k | i + |r| <= k < |s| :: IsSpace(s[k]))
  {
    var i := LeadingSpaces(s);
    var j := TrailingStart(s, i);
    StripSlice(s, i, j);
    s[i..j]
  }

  lemma StripSlice(s: string, i: nat, j: nat)
    requires i <= j <= |s|
    requires forall k | 0 <= k < i :: IsSpace(s[k])
    requires forall k | j <= k < |s| :: IsSpace(s[k])
    requires i == |s| || !IsSpace(s[i])
    requires j == i || !IsSpace(s[j - 1])
    ensures var r := s[i..j];
      && (r != [] ==> !IsSpace(r[0]) && !IsSpace(r[|r| - 1]))
      && (r == [] <==> forall k | 0 <= k < |s| :: IsSpace(s[k]))
      && r == s[i..i + |r|]
  {
    if i == j {
      assert forall k | 0 <= k < |s| :: IsSpace(s[k]);
    } else {
      assert !IsSpace(s[i]);
    }
  }

  /** `pat` occurs in `s` starting at position `i`. */
  predicate OccursAt(s: string, pat: string, i: nat)
  {
    i + |pat| <= |s| && s[i..i + |pat|] == pat
  }

  /** Python's `s.replace(pat, rep)` for a non-empty `pat`: occurrences are found left to right and
      do not overlap; the text after a replaced occurrence is scanned from its end. */
  function Replace(s: string, pat: string, rep: string): (r: string)
    requires |pat| > 0
    ensures |rep| == |pat| ==> |r| == |s|
    ensures |rep| <= |pat| ==> |r| <= |s|
    ensures |s| < |pat| ==> r == s
    decreases |s|
  {
    if |s| < |pat| then s
    else if s[..|pat|] == pat then rep + Replace(s[|pat|..], pat, rep)
    else [s[0]] + Replace(s[1..], pat, rep)
  }

  /** `s` with every occurrence of `c` dropped: the reference for replacing a character by "". */
  function Without(s: string, c: char): (r: string)
    ensures c !in r
    ensures |r| <= |s|
  {
    if s == [] then "" else (if s[0] == c then "" else [s[0]]) + Without(s[1..], c)
  }

  lemma {:induction false} ReplaceAbsent(s: string, pat: string, rep: string)
    requires |pat| > 0
    requires forall i | 0 <= i <= |s| :: !OccursAt(s, pat, i)
    ensures Replace(s, pat, rep) == s
    decreases |s|
  {
    if |s| >= |pat| {
      assert !OccursAt(s, pat, 0);
      forall i | 0 <= i <= |s[1..]| ensures !OccursAt(s[1..], pat, i) {
        assert !OccursAt(s, pat, i + 1);
        if i + |pat| <= |s[1..]| {
          assert s[1..][i..i + |pat|] == s[i + 1..i + 1 + |pat|];
        }
      }
      ReplaceAbsent(s[1..], pat, rep);
      assert [s[0]] + s[1..] == s;
    }
  }

  /** Replacing a single character by the empty string removes exactly that character. */
  lemma {:induction false} ReplaceCharByEmpty(s: string, c: char)
    ensures Replace(s, [c], "") == Without(s, c)
    decreases |s|
  {
    if s != [] {
      ReplaceCharByEmpty(s[1..], c);
      assert s[..1] == [s[0]];
    }
  }
}

=== FILE: wrappers.dfy ===
/** Failure-carrying values used across the model in place of Python exceptions. */
module Wrappers {

  /** An optional value: what an oracle returns when the call it stands for may raise. */
  datatype Option<+T> = None | Some(value: T)

  /** Either a value or the error the source would have raised. */
  datatype Result<+R, +E> = Success(value: R) | Failure(error: E)
}
